=== FILE: README.md ===
# Telegram terminal client: worker and UI loop, modelled in Dafny

The client has two halves that talk through one queue.

- **The worker** (`telegram_worker.py`, class `TelegramWorker`) keeps:
  - the active chat;
  - a per-chat message cache, deduplicated by message id;
  - the set of chats whose history is being fetched.

  It turns the Telegram client's dialogs and messages into plain records, loads history a page at a time, and puts events on `ui_queue`.
- **The UI** (`main.py`) takes one event per turn and folds it into its own per-chat lists. It then handles one key. Some keys edit the input line, some move the selection in the chat directory, some scroll the message pane. The UI also calls back into the worker to switch chats, send text or fetch older pages.

The model is organised as follows:

| module | file | what it holds |
|---|---|---|
| `Types` | `types.dfy` | the records the halves exchange: messages, chat entries, the five event kinds, the raw objects the Telegram library hands over, Python truthiness |
| `Text` | `text.dfy` | Python string operations the code relies on: decimal `str`/`int`, slicing with negative bounds, `ljust`, `isspace` |
| `History` | `history.dfy` | the worker's pure logic: dedup, message conversion, reversing and merging a history page, dialog conversion, the pinned-first sort |
| `Worker` | `worker.dfy` | `TelegramWorker` as a class whose fields the methods update; `ui_queue` is a `seq<Event>` field |
| `Ansi` | `ansi.dfy` | `parse_ansi`, with the regular-expression scan written out |
| `View` | `view.dfy` | the arithmetic of the drawing functions: viewport, scroll limits, selection wrap-around, line wrapping, sidebar rows, input box, status line |
| `Ui` | `ui.dfy` | `UIState` and the state of `main()` as classes, with the event and key handlers |
| `Scenarios` | `scenarios.dfy` | concrete runs: start-up, pagination, single-flight loads, duplicate delivery, chat switches, a failed send, the UI's first moves |

The network stays outside the model. Each method is given the outcome of its network call as a parameter:

- the history page, or the failure;
- the sent message, or the failure;
- the dialog stream, or where it broke off.

Each method returns the request it would make. The UI's calls into the worker come back as an `Intent`. An uncaught exception in the main loop comes back as `Intent.Abort`.

## Model

| member | source | states |
|---|---|---|
| Types.OrElse | telegram_worker.py:75 | `a or b` for strings: the first value when it is present and non-empty, the second otherwise |
| Text.NatToDecimal | telegram_worker.py:145 | the decimal text of a count is non-empty, all digits, and has no leading zero |
| Text.DecimalRoundTrip | main.py:91-101 | the decimal text the sidebar prints for a count (`str(n)` inside the f-strings) reads back as `n` under `int()`: the rendering loses nothing |
| Text.DecimalLeadingZero | main.py:374-376 | `int()` of a code with one more leading zero is the same number |
| Text.DecimalLeadingZeros | main.py:374-376 | `int()` of a code ignores any number of leading zeros, so `ESC[031m` and `ESC[31m` select the same colour |
| Text.IntToDecimal | main.py:93 | the text of a negative number is `-` followed by the text of its magnitude; otherwise it is the plain decimal text |
| Text.PySlice | main.py:714 | Python slicing: a bound in range is used as is, a negative bound counts from the end, a bound past the end is the length, a bound before minus the length is 0, and crossed bounds give the empty sequence |
| Text.Ljust | main.py:109 | `ljust(w)` keeps the text as a prefix and pads with spaces to `max(len, w)` |
| History.AppendIfNewEffect | telegram_worker.py:50-68 | after adding, the id is present; a new id appends the message at the end; a known id leaves the list unchanged |
| History.AppendIfNewKeepsDistinct | telegram_worker.py:55-61 | adding keeps the message ids of a chat pairwise distinct |
| History.AppendIfNewIdempotent | telegram_worker.py:55-68 | delivering the same message twice has the effect of delivering it once |
| History.HistoryMessage | telegram_worker.py:268-284 | a history record keeps id, date, direction, photo and caption; its text is the message text when there is one; a photo without text gets a non-empty placeholder; otherwise the text is empty; the sender is the author's first name when the message has an author, else `Unknown` |
| History.IncomingMessage | telegram_worker.py:109-115 | an incoming message keeps its id, date and direction, has no photo and no caption, and has non-empty text: its own text when that is non-empty, else exactly `[media message]`; the sender is the author's first name when there is an author, else `Unknown` |
| History.SentMessage | telegram_worker.py:338-344 | a sent message keeps the server's id and text, is outgoing and is from `You` |
| History.CollectedHistoryAppend | telegram_worker.py:266-291 | collecting a page distributes over concatenation: the records keep the fetch order, and each fetched message contributes at most its own record |
| History.CollectedHistoryLength | telegram_worker.py:266-291 | a page keeps at most one record per fetched message, and exactly one each when none fails to convert |
| History.ReverseAt | telegram_worker.py:299 | `messages.reverse()` puts element `k` at position `len-1-k` |
| History.MergeHistoryAt | telegram_worker.py:299-307 | the merged list starts with the page in reverse order; an older page is followed by the whole stored list; an initial load replaces the stored list |
| History.MergeOlderAscending | telegram_worker.py:302-304 | an older page of newest-first ids, all below the stored ids, placed in front of an ascending stored list gives an ascending list |
| History.MergeInitialAscending | telegram_worker.py:305-307 | an initial newest-first page stored as a replacement is ascending |
| History.MergeOlderDistinct | telegram_worker.py:302-304 | prepending keeps the ids distinct when the page shares no id with the stored list |
| History.MergeOlderKeepsDuplicates | telegram_worker.py:302-304 | prepending does not deduplicate: a page that repeats a stored message leaves that id twice in the chat |
| History.ChatTitle | telegram_worker.py:75 | the title is the chat title when that is non-empty, else the first name when that is non-empty, else exactly `Unknown`; it is never empty |
| History.ProcessDialog | telegram_worker.py:70-92 | a directory entry keeps the chat's id, pin flag, type, unread mark and unread counters, its verified, restricted, scam and fake flags and its member count; its title is `title or first_name or 'Unknown'`, never empty |
| History.ProcessedChatsAppend | telegram_worker.py:135-149 | the dialog loop distributes over concatenation: the chats keep the enumeration order, and each dialog contributes at most its own chat |
| History.ProcessedChatsSkipsFailures | telegram_worker.py:135-149 | the loaded chats are exactly the conversions of the dialogs that did not fail, and there are no more of them than dialogs |
| History.ProgressEventsShape | telegram_worker.py:140-146 | loading `n` chats emits `n / 5` progress events, the `k`-th reporting `5(k+1)` loaded |
| History.PinnedFirstIsStableSort | telegram_worker.py:151-152 | the sort by `not is_pinned` is a permutation, puts every pinned chat before every unpinned one, and keeps the order within each group |
| History.StableSortUnique | telegram_worker.py:152 | any order that is sorted by the key and keeps each group's order is the pinned-first order |
| Worker.ContainsId | telegram_worker.py:56-57 | the scan for an id answers whether some stored message has that id |
| Worker.CollectHistory | telegram_worker.py:257-291 | the loop over the fetched messages yields the converted page, skipping messages whose conversion raises |
| Worker.TelegramWorker.constructor | telegram_worker.py:39-48 | a new worker has no client, no active chat, empty caches, nothing loading, page size 200 and an empty queue |
| Worker.TelegramWorker.TakeEvent | main.py:579-580 | `get_nowait`: on an empty queue, nothing and the queue is unchanged; otherwise the oldest event, removed from the queue |
| Worker.TelegramWorker.AddMessageToChat | telegram_worker.py:50-68 | returns true exactly when the id was new to the chat; then the message is appended and one `new_message` event queued; otherwise nothing changes; distinct ids stay distinct |
| Worker.TelegramWorker.HandleIncoming | telegram_worker.py:104-117 | an incoming message is converted and added to its chat, with the same dedup and event as above |
| Worker.TelegramWorker.BeginHistoryLoad | telegram_worker.py:249-264 | a request is made exactly when the client exists, the chat is the active one and no load for it is in flight; the offset is 0 without `before_message_id` and the stored count with one; the chat is then marked as loading |
| Worker.TelegramWorker.FinishHistoryLoad | telegram_worker.py:293-324 | a failure queues the error and keeps the cache; an empty page, or a chat no longer active, changes nothing; otherwise the merged list is stored and announced; in every case the loading mark is removed |
| Worker.TelegramWorker.LoadChatHistory | telegram_worker.py:246-324 | the whole load, from request to outcome: the loading marks end as they began, and the cache and queue change as the two halves above state |
| Worker.TelegramWorker.SwitchActiveChat | telegram_worker.py:358-361 | switching to a different chat empties the whole cache; staying on the same chat keeps it |
| Worker.TelegramWorker.SetCurrentChat | telegram_worker.py:354-367 | the chat becomes active; the cache is kept when the chat was already active and emptied otherwise; the first page is requested at offset 0 exactly when the client exists and no load is in flight; without a request nothing is queued; a failed fetch queues the history error and stores nothing; an empty page changes nothing; a non-empty page is stored oldest first for this chat on top of that cache and announced as not older; the in-flight set is as before |
| Worker.TelegramWorker.SendMessage | telegram_worker.py:326-352 | a send is requested exactly when the active chat id is truthy and the client exists; a failure queues the error only; a success adds the sent message with the usual dedup |
| Worker.TelegramWorker.LoadDialogs | telegram_worker.py:127-149 | the dialog loop returns the converted chats, in order, and queues one progress event per five chats |
| Worker.StartAbortEvents | telegram_worker.py:166-179 | an aborted start-up ends with the general start-up error; a timeout puts the timeout error in front of it |
| Worker.TelegramWorker.StartTelegramClient | telegram_worker.py:94-180 | the directory is published exactly when the client started and the dialog stream completed; after a successful start: a `Loading chats...` event, the progress events, then the pinned-first directory, or, when the stream broke off, the general error, preceded by the timeout error when it timed out; a failure to create the client queues the general error and leaves the client unset; a failed start queues one error and keeps the client; a timeout at start queues the timeout error and then the general one |
| Ansi.EscapeEnd | main.py:359 | a match of the colour escape pattern at `i` is at least four characters long and ends inside the text |
| Ansi.EscapeEndExact | main.py:359 | `EscapeEnd` finds a match of `ESC [ \d+(;\d+)* m` at `i` exactly when some `m` closes one there; the match it finds ends with `m`, and its parameters are digits and semicolons, start and end with a digit and never have two semicolons in a row |
| Ansi.EscapeParams | main.py:371 | the parameter group of a match consists of digits and semicolons only |
| Ansi.LastField | main.py:374 | `split(';')[-1]` is the longest suffix without `;`, preceded by `;` when shorter than the text, and all digits for a parameter group |
| Ansi.CodeValue | main.py:371-376 | for a parameter string of digits and semicolons that ends with a digit (as every match does): a single number gives its value; a `38;5;` code gives its last field; any other code with several fields has no value (`int()` raises) |
| Ansi.ScanKeepsStripped | main.py:364-382 | the characters kept by the scan are the text with every escape sequence removed |
| Ansi.ScanPlainText | main.py:360-383 | a text without escape character is one run under the code in force (0 at the start) |
| Ansi.CloseRun | main.py:367-368 | closing a run appends exactly its characters under the current code, and never adds an empty segment |
| Ansi.SegmentsAreStripped | main.py:357-383 | segments that spell out the scan concatenate to the stripped text |
| Ansi.ScanStep | main.py:364-379 | one turn of the match loop either meets a code `int()` rejects, and then the whole scan fails, or advances and keeps the closed segments non-empty and consistent with the scan |
| Ansi.ParseAnsi | main.py:357-383 | `parse_ansi` succeeds exactly when no escape sequence has an unconvertible code; then its segments, expanded character by character, are the scan; together they spell the stripped text; none of them is empty |
| View.ViewportBounds | main.py:161-167 | the shown slice lies inside the message list and is at most one pane high |
| View.ViewportShowsNewest | main.py:165-166 | unscrolled, the pane ends at the newest message |
| View.HighlightVisible | main.py:170-179 | the highlighted message is inside the shown slice exactly when the scroll offset is below the message count |
| View.MaxScroll | main.py:786 | the scroll limit is never negative and is either 0 or the count minus `height - 8` |
| View.ScrollUpBounds | main.py:787 | scrolling up never passes the limit or the step, and moves by the full step when there is room |
| View.ScrollDownBounds | main.py:806 | scrolling down stops at 0 and otherwise moves by the full step |
| View.ScrollRoundTrip | main.py:787-806 | with room to move, scrolling up and then down by the same step returns to the start |
| View.ShortHistoryAlwaysWantsOlder | main.py:786-790 | when the list is no more than ten messages longer than the pane, every up-scroll asks for an older page |
| View.FullScrollHidesOldest | main.py:786-787 | the limit counts `height - 8` lines while the pane shows `height - 10` messages, so even fully scrolled the two oldest messages are never shown |
| View.OlderLoadPassesCap | main.py:637-638 | after an older page the offset grows by the whole merged list, which takes it past the scroll limit |
| View.StepIndex | main.py:767 | the `%` step always lands inside the list |
| View.StepNeighbours | main.py:763-777 | the selection steps to the next or previous chat and wraps at either end |
| View.StepRoundTrip | main.py:763-777 | a step down followed by a step up (or the reverse) returns to the same chat |
| View.StepChangesIndex | main.py:766-768 | a step changes the selection, and so switches chat, exactly when more than one chat is shown |
| View.ToggleMode | main.py:753 | `3 - mode` swaps "All" (1) and "Favorites" (2) |
| View.ToggleModeInvolution | main.py:752-753 | switching the mode twice restores it |
| View.SplitLines | main.py:185 | `split('\n')` gives at least one line and no line contains a newline |
| View.SplitLinesRoundTrip | main.py:185 | joining the split lines with newlines restores the text |
| View.Chunks | main.py:188-189 | every wrapped chunk is non-empty and at most the chunk width |
| View.ChunksRoundTrip | main.py:188-189 | the chunks concatenate to the line, and all but the last have the full width |
| View.WrapLine | main.py:186-197 | a line that fits is kept whole; a long line is split into pieces that concatenate back to it; a width of 3 makes `range` raise; a smaller width draws nothing |
| View.WrapLineFits | main.py:187-189 | every drawn piece fits between the pane borders |
| View.TitlePrefix | main.py:66-74 | a favourite gets the star; otherwise a pinned chat gets the pin; otherwise a verified chat gets the check mark; otherwise a scam or fake chat gets the warning sign; the prefix is empty exactly for a chat that is none of these |
| View.DecoratedTitle | main.py:91-101 | the row text starts with prefix and title, followed by ` (N)` when the member count is present and non-zero; it ends with ` [@M]` when there are mentions, else with ` [U]` when there are unread messages; without either counter it is prefix, title and member count alone |
| View.TruncateTitleBound | main.py:103-104 | for a sidebar at least 7 columns wide: a title longer than `max_x - 4` is cut to `max_x - 7` characters plus `...`; a shorter title is kept |
| View.SidebarRowFits | main.py:109 | for a sidebar at least 7 columns wide, each sidebar row is exactly `max_x - 2` characters wide |
| View.VisibleInput | main.py:217-221 | input that fits the box is shown whole |
| View.VisibleInputIsSuffix | main.py:217-221 | a long input shows its last `max_x - 12` characters |
| View.StatusLine | main.py:258-264 | the status line is exactly the screen width |
| Ui.Classify | main.py:678-835 | inside the input box, keys only toggle focus, clear, submit, delete or type; outside it they never edit the input |
| Ui.HelpPopupBindings | main.py:338-345 | each key binding of the help popup maps to its action under the focus it needs: Shift+arrows navigate, `{`/`}` switch the mode, `+`/`_` add and remove a favourite, the arrows scroll by one, Tab toggles the focus, Esc clears and Enter sends in the input box, `?` changes nothing |
| Ui.WheelBindings | main.py:807-835 | outside the input box wheel up scrolls towards older messages by three, otherwise wheel down towards newer ones; in the input box the wheel does nothing |
| Ui.PrintableKeyAppends | main.py:723-729 | a printable ASCII key other than `?` typed in the input box is appended |
| Ui.FavoriteChatsAppend | main.py:313 | the favourites filter distributes over concatenation, so it keeps the directory order |
| Ui.FavoriteChatsMembers | main.py:313 | the favourites filter keeps exactly the chats whose id is a favourite |
| Ui.Filtered | main.py:311-315 | mode 2 shows exactly the favourite chats; any other mode shows every chat |
| Ui.Clamp | main.py:318-321 | the selection is pulled back inside a non-empty list, kept when already inside, and 0 for an empty list |
| Ui.ClampIdempotent | main.py:318-321 | clamping twice is clamping once |
| Ui.SelectedAfterClamp | main.py:560-565 | after clamping there is a current chat exactly when some chat is shown, and it is one of them |
| Ui.UIState.constructor | main.py:271-276 | the UI starts in "All" mode, with the saved favourites, the first chat selected, the input not focused |
| Ui.UIState.AddFavorite | main.py:296-301 | returns true exactly when the id was not a favourite; afterwards it is one |
| Ui.UIState.RemoveFavorite | main.py:303-308 | returns true exactly when the id was a favourite; afterwards it is not |
| Ui.UIState.FilterChats | main.py:310-323 | returns the chats the mode shows and clamps the selection to them |
| Ui.ChatScreen.constructor | main.py:542-558 | the screen starts with no chats, no messages, scroll 0, empty input and the `Connecting to Telegram...` popup |
| Ui.ChatScreen.CurrentChat | main.py:560-565 | `get_current_chat` clamps the selection and returns a chat exactly when one is shown, and that chat is among the shown |
| Ui.ChatScreen.HandleEvent | main.py:584-640 | progress replaces the popup text; a directory replaces the chat list, closes the popup and asks for its first chat; a new message is appended and resets the scroll for the current chat; an error becomes a note in the current chat when its id is truthy; a history page replaces the chat's list and, when older, raises the scroll offset by the page length |
| Ui.ChatScreen.SubmitInput | main.py:686-694 | Enter sends the input and clears it and the scroll exactly when the input has a non-space character and a chat is current; otherwise nothing changes |
| Ui.ChatScreen.NavigateChats | main.py:763-782 | Shift+Up/Down moves the selection with wrap-around; the chat is switched and the scroll reset exactly when the selection changed |
| Ui.ChatScreen.ScrollTowardsOlder | main.py:783-803 | an up-scroll moves towards the limit; near the top it requests the page before the oldest message of a chat with a truthy id; a UI error note in first place makes the key raise instead |
| Ui.ChatScreen.ScrollTowardsNewer | main.py:804-806 | a down-scroll moves towards 0, and only when the chat has messages |
| Ui.ChatScreen.HandleInput | main.py:650-835 | one turn of key handling, as each key's clause states: focus, mode, favourites, input editing, selection, scrolling and the worker call made; a send resets the scroll to the newest message; scrolling up in an empty chat changes nothing and requests nothing |
| Scenarios.DirectoryOrder | telegram_worker.py:135-152 | dialogs 1 to 4 with 2 and 3 pinned load as four chats in the order 2, 3, 1, 4 |
| Scenarios.DirectoryOrderExample | telegram_worker.py:130-159 | after start-up with those dialogs the UI takes the `Loading chats...` event and then the directory 2, 3, 1, 4 |
| Scenarios.PaginationExample | telegram_worker.py:246-315 | a chat holding 10, 11, 12 that loads the page 9, 8 before 10 ends up with 8 to 12 and an event marked older |
| Scenarios.SingleFlightExample | telegram_worker.py:249-324 | a second load while one is in flight makes no request, and a failed load releases the chat |
| Scenarios.IncomingTwiceExample | telegram_worker.py:105-117 | a message delivered twice is stored once and announced once |
| Scenarios.SwitchDropsCacheExample | telegram_worker.py:354-367 | switching to another chat drops the cached messages of the previous one |
| Scenarios.ClientFailedExample | telegram_worker.py:94-180 | when creating the client raises, one general error is queued and a later chat switch requests no history |
| Scenarios.FailedSendExample | telegram_worker.py:334-352 | a failed send queues only the error and caches nothing |
| Scenarios.ScreenExample | main.py:616-803 | the UI asks for the first loaded chat; after its short first page, the up arrow asks for the page before the oldest message and the scroll stays 0 |
| Scenarios.NoticeFirstExample | main.py:783-803 | with an error note as the first entry of the current chat, the up arrow ends the main loop |

## Left out

- Drawing is left out: curses windows, colours, attributes, `draw_chat_header` and the loading popup's window. Only the text and the geometry the drawing code computes are modelled.
- The help popup, the message preview (`show_message_preview`) and `format_message` are not modelled. The `?` and `§` keys are classified as doing nothing to the state. The key the help popup consumes while it is open is not modelled.
- Threads, the asyncio loop, `run_coroutine_threadsafe`, `run_telegram_worker` and its extra `Telegram client error` event, `stop`, `_shutdown` and the keep-alive loop are not modelled. Scheduled calls come back as an `Intent` or a request value, and each happens in one step.
- `ui_queue` is a module-level `queue.Queue` shared by every worker. The model gives each worker its own queue.
- `download_photo`, `get_message_photo` and `_create_ascii_art` are not modelled: image decoding is outside the model. A photo is an opaque value.
- Reading and writing `favorites.json` is not modelled. The saved set is a constructor parameter, and saving is a side effect outside the model.
- Logging is not modelled, and neither are dates. `datetime.now()` is a parameter of `HandleEvent`. Timestamps are plain integers.
- Event payloads are copies in the model. In the program the `chat_history_loaded` event carries the worker's own list object (`telegram_worker.py:310-315`). The UI stores that object as its list for the chat (`main.py:634`). From then on the two halves share one list until the worker replaces it. The model does not capture this aliasing. Its consequences in the program:
  - A `new_message` event is appended twice to the shared list: once by the worker (`telegram_worker.py:61`), once by the UI (`main.py:595`). The message shows twice.
  - The UI's error notes (`main.py:606-614`) land in the worker's cache too. They have no `'id'` key.
  - The next `_add_message_to_chat` on that chat then raises `KeyError` at `telegram_worker.py:56`. An incoming message is lost. A message that was sent is reported as `Failed to send message: 'id'`.
  - The offset of an older-page load (`telegram_worker.py:263`) counts the duplicates and the notes. The page requested then skips messages.
- Worker.TelegramWorker.AddMessageToChat: keeps the message ids of each cached chat distinct. In the program this holds only until the UI appends to the shared list (see the previous entry).
- Multi-byte key assembly in the input box (`main.py:730-747`) is not modelled. `Input.Typed` stands for the character it decodes. Other keys above 127 in the input box are ignored.
- A mouse event is modelled as its button state (`Input.Wheel`). A `curses.error` from `getmouse` is not modelled.
- The chat record's constant `'messages': []` field and the chat `type` string carry no behaviour. They are dropped or kept opaque.
- `\d` in the escape pattern and `int()` accept every Unicode decimal digit. The model accepts ASCII digits only.
- View.HighlightVisible: states only that the highlighted message is inside the slice chosen for drawing. When earlier messages wrap over several lines, the pane can run out of rows before it is reached.
- View.ChunksRoundTrip: does not state the number of chunks (`ceil(len / w)`).
- Ansi.ParseAnsi: does not state that each segment is exactly one run of text between two escape sequences. It states what the segments expand to, and that none of them is empty.
- View.StatusLine: states the width only. The text follows from the definition.

=== FILE: ansi.dfy ===
/** `parse_ansi` of main.py: split a text at its colour escape sequences
    `ESC [ <digits>(;<digits>)* m` into (colour code, text) segments.

    The regular expression scan is made explicit: `EscapeEnd` says whether a
    sequence starts at a position, and the scan, like `finditer`, tries each
    position from the left and resumes after each match. `Scan` is the
    character-level reference: every character that is not part of an escape
    sequence, tagged with the code in force at that point. */
module Ansi {
  import opened Types
  import opened Text

  const Esc: char := '\U{1B}'

  datatype Segment = Segment(code: int, text: string)

  /** A character of the text with the colour code in force where it stands. */
  datatype Tagged = Tagged(code: int, ch: char)

  /** Result of `parse_ansi`: the segments, or the parameter string on which
      `int()` raises (several fields, not starting with `38;5;`). */
  datatype AnsiResult = Parsed(segments: seq<Segment>) | InvalidCode(params: string)

  predicate IsParamChar(c: char) {
    IsDigit(c) || c == ';'
  }

  /** End of the run of digits and semicolons that starts at `j`. */
  function RunEnd(text: string, j: nat): (k: nat)
    requires j <= |text|
    ensures j <= k <= |text|
    ensures forall p :: j <= p < k ==> IsParamChar(text[p])
    ensures k == |text| || !IsParamChar(text[k])
    decreases |text| - j
  {
    if j == |text| || !IsParamChar(text[j]) then j else RunEnd(text, j + 1)
  }

  /** A run of digits and semicolons matches `\d+(;\d+)*`: it starts and
      ends with a digit and has no two semicolons in a row. */
  predicate WellFormedParams(p: string) {
    && p != []
    && IsDigit(p[0])
    && IsDigit(p[|p| - 1])
    && forall k :: 0 <= k < |p| - 1 ==> !(p[k] == ';' && p[k + 1] == ';')
  }

  /** `text[i..j + 1]` is a whole escape sequence `ESC [ params m`. */
  predicate EscapeAt(text: string, i: nat, j: nat) {
    && i + 2 < j < |text|
    && text[i] == Esc && text[i + 1] == '['
    && text[j] == 'm'
    && (forall k :: i + 2 <= k < j ==> IsParamChar(text[k]))
    && WellFormedParams(text[i + 2..j])
  }

  /** If an escape sequence starts at `i`, the position just after its `m`. */
  function EscapeEnd(text: string, i: nat): (r: Option<nat>)
    requires i < |text|
    ensures r.Some? ==> i + 4 <= r.value <= |text|
  {
    if i + 1 < |text| && text[i] == Esc && text[i + 1] == '[' then
      var j := RunEnd(text, i + 2);
      if j < |text| && text[j] == 'm' && WellFormedParams(text[i + 2..j]) then Some(j + 1) else None
    else None
  }

  /** `EscapeEnd` finds a sequence exactly when some `m` at `j` closes one,
      and the one it finds is whole. Only the end of the run of digits and
      semicolons can be that `j`: a shorter match would have to be followed
      by `m`, yet is followed by a digit or `;`. */
  lemma EscapeEndExact(text: string, i: nat)
    requires i < |text|
    ensures EscapeEnd(text, i).Some? <==> exists j :: EscapeAt(text, i, j)
    ensures EscapeEnd(text, i).Some? ==> EscapeAt(text, i, EscapeEnd(text, i).value - 1)
  {
    if i + 1 < |text| && text[i] == Esc && text[i + 1] == '[' {
      var k := RunEnd(text, i + 2);
      if EscapeEnd(text, i).Some? {
        assert EscapeAt(text, i, k);
      }
    }
  }

  /** The parameter string (`match.group(1)`) of the sequence at `i`. */
  function EscapeParams(text: string, i: nat): (p: string)
    requires i < |text| && EscapeEnd(text, i).Some?
    ensures forall k :: 0 <= k < |p| ==> IsParamChar(p[k])
    ensures p != [] && IsDigit(p[|p| - 1])
  {
    text[i + 2..EscapeEnd(text, i).value - 1]
  }

  /** `code_str.split(';')[-1]`. */
  function LastField(p: string): (f: string)
    ensures |f| <= |p| && f == p[|p| - |f|..]
    ensures forall k :: 0 <= k < |f| ==> f[k] != ';'
    ensures |f| < |p| ==> p[|p| - |f| - 1] == ';'
    ensures (forall k :: 0 <= k < |p| ==> IsParamChar(p[k])) ==> AllDigits(f)
  {
    if p == [] || p[|p| - 1] == ';' then [] else LastField(p[..|p| - 1]) + [p[|p| - 1]]
  }

  /** The colour code of a parameter string: the last field of a `38;5;N`
      code, the number itself for a single field, and no value (`int()`
      raises) for any other code with several fields. */
  function CodeValue(p: string): (r: Option<int>)
    requires forall k :: 0 <= k < |p| ==> IsParamChar(p[k])
    requires p != [] && IsDigit(p[|p| - 1])
    ensures AllDigits(p) ==> r == Some(DecimalValue(p))
    ensures StartsWith(p, "38;5;") ==> r == Some(DecimalValue(LastField(p)))
    ensures r.None? <==> (!AllDigits(p) && !StartsWith(p, "38;5;"))
  {
    assert (';' in p) <==> !AllDigits(p) by {
      if ';' in p {
        var k :| 0 <= k < |p| && p[k] == ';';
        assert !IsDigit(p[k]);
      }
      if !AllDigits(p) {
        var k :| 0 <= k < |p| && !IsDigit(p[k]);
        assert IsParamChar(p[k]);
        assert p[k] in p;
      }
    }
    if ';' in p && StartsWith(p, "38;5;") then Some(DecimalValue(LastField(p)))
    else if ';' in p then None
    else Some(DecimalValue(p))
  }

  /** Every character outside escape sequences, tagged with the code of the
      most recent escape before it (`code` at `i`); `None` when a sequence
      with an unconvertible code is met. */
  function Scan(text: string, i: nat, code: int): Option<seq<Tagged>>
    requires i <= |text|
    decreases |text| - i
  {
    if i == |text| then Some([])
    else match EscapeEnd(text, i)
      case Some(e) =>
        (match CodeValue(EscapeParams(text, i))
          case None => None
          case Some(c) => Scan(text, e, c))
      case None => Prepend([Tagged(code, text[i])], Scan(text, i + 1, code))
  }

  /** The text from `i` on with every escape sequence removed. */
  function Strip(text: string, i: nat): string
    requires i <= |text|
    decreases |text| - i
  {
    if i == |text| then []
    else match EscapeEnd(text, i)
      case Some(e) => Strip(text, e)
      case None => [text[i]] + Strip(text, i + 1)
  }

  function Prepend(prefix: seq<Tagged>, rest: Option<seq<Tagged>>): Option<seq<Tagged>> {
    if rest.Some? then Some(prefix + rest.value) else None
  }

  function TagAll(code: int, s: string): (r: seq<Tagged>)
    ensures |r| == |s|
    ensures forall k :: 0 <= k < |s| ==> r[k] == Tagged(code, s[k])
  {
    if s == [] then [] else TagAll(code, s[..|s| - 1]) + [Tagged(code, s[|s| - 1])]
  }

  function Chars(t: seq<Tagged>): (s: string)
    ensures |s| == |t|
    ensures forall k :: 0 <= k < |t| ==> s[k] == t[k].ch
  {
    if t == [] then [] else Chars(t[..|t| - 1]) + [t[|t| - 1].ch]
  }

  /** The segments expanded character by character. */
  function Flatten(segments: seq<Segment>): seq<Tagged> {
    if segments == [] then []
    else
      var last := segments[|segments| - 1];
      Flatten(segments[..|segments| - 1]) + TagAll(last.code, last.text)
  }

  /** The segment texts concatenated. */
  function Texts(segments: seq<Segment>): string {
    if segments == [] then [] else Texts(segments[..|segments| - 1]) + segments[|segments| - 1].text
  }

  lemma ChainPrepend(a: seq<Tagged>, b: seq<Tagged>, rest: Option<seq<Tagged>>)
    ensures Prepend(a, Prepend(b, rest)) == Prepend(a + b, rest)
  {
    if rest.Some? {
      assert a + (b + rest.value) == (a + b) + rest.value;
    }
  }

  lemma ChainTagAll(code: int, text: string, lo: nat, hi: nat)
    requires lo <= hi < |text|
    ensures TagAll(code, text[lo..hi + 1]) == TagAll(code, text[lo..hi]) + [Tagged(code, text[hi])]
  {
    assert text[lo..hi + 1][..hi - lo] == text[lo..hi];
  }

  /** One character that starts no escape sequence: it moves into the prefix. */
  lemma PlainStep(text: string, i: nat, code: int, prefix: seq<Tagged>)
    requires i < |text| && EscapeEnd(text, i).None?
    ensures Prepend(prefix, Scan(text, i, code)) == Prepend(prefix + [Tagged(code, text[i])], Scan(text, i + 1, code))
  {
    ChainPrepend(prefix, [Tagged(code, text[i])], Scan(text, i + 1, code));
  }

  /** An escape sequence: the scan fails on an unconvertible code, otherwise
      resumes after the sequence with the new code. */
  lemma EscapeStep(text: string, i: nat, code: int, prefix: seq<Tagged>)
    requires i < |text| && EscapeEnd(text, i).Some?
    ensures CodeValue(EscapeParams(text, i)).None? ==> Prepend(prefix, Scan(text, i, code)).None?
    ensures CodeValue(EscapeParams(text, i)).Some? ==>
      Prepend(prefix, Scan(text, i, code))
        == Prepend(prefix, Scan(text, EscapeEnd(text, i).value, CodeValue(EscapeParams(text, i)).value))
  {
  }

  lemma {:induction false} CharsAppend(a: seq<Tagged>, b: seq<Tagged>)
    ensures Chars(a + b) == Chars(a) + Chars(b)
  {
    assert |Chars(a + b)| == |Chars(a) + Chars(b)|;
    forall k | 0 <= k < |a + b| ensures Chars(a + b)[k] == (Chars(a) + Chars(b))[k] {
      if k < |a| {
        assert (a + b)[k] == a[k];
      } else {
        assert (a + b)[k] == b[k - |a|];
      }
    }
  }

  /** The characters of the expanded segments are the concatenated segment texts. */
  lemma {:induction false} FlattenChars(segments: seq<Segment>)
    ensures Chars(Flatten(segments)) == Texts(segments)
  {
    if segments != [] {
      var init := segments[..|segments| - 1];
      var last := segments[|segments| - 1];
      FlattenChars(init);
      CharsAppend(Flatten(init), TagAll(last.code, last.text));
      assert Chars(TagAll(last.code, last.text)) == last.text;
    }
  }

  /** The characters `Scan` keeps are exactly the text with its escape
      sequences removed. */
  lemma {:induction false} ScanKeepsStripped(text: string, i: nat, code: int)
    requires i <= |text|
    requires Scan(text, i, code).Some?
    ensures Chars(Scan(text, i, code).value) == Strip(text, i)
    decreases |text| - i, 1
  {
    if i < |text| {
      if EscapeEnd(text, i).Some? {
        EscapeKeepsStripped(text, i, code);
      } else {
        PlainKeepsStripped(text, i, code);
      }
    }
  }

  /** `ScanKeepsStripped` where an escape sequence starts at `i`. */
  lemma {:induction false} EscapeKeepsStripped(text: string, i: nat, code: int)
    requires i < |text| && EscapeEnd(text, i).Some?
    requires Scan(text, i, code).Some?
    ensures Chars(Scan(text, i, code).value) == Strip(text, i)
    decreases |text| - i, 0
  {
    var c := EscapeUnfold(text, i, code);
    ScanKeepsStripped(text, EscapeEnd(text, i).value, c);
  }

  /** `ScanKeepsStripped` where a plain character stands at `i`. */
  lemma {:induction false} PlainKeepsStripped(text: string, i: nat, code: int)
    requires i < |text| && EscapeEnd(text, i).None?
    requires Scan(text, i, code).Some?
    ensures Chars(Scan(text, i, code).value) == Strip(text, i)
    decreases |text| - i, 0
  {
    PlainUnfold(text, i, code);
    ScanKeepsStripped(text, i + 1, code);
    PrependChars(Tagged(code, text[i]), Scan(text, i + 1, code).value);
  }

  /** One step of `Scan` and `Strip` over an escape sequence. */
  lemma EscapeUnfold(text: string, i: nat, code: int) returns (c: int)
    requires i < |text| && EscapeEnd(text, i).Some? && Scan(text, i, code).Some?
    ensures CodeValue(EscapeParams(text, i)) == Some(c)
    ensures Scan(text, i, code) == Scan(text, EscapeEnd(text, i).value, c)
    ensures Strip(text, i) == Strip(text, EscapeEnd(text, i).value)
  {
    c := CodeValue(EscapeParams(text, i)).value;
  }

  /** One step of `Scan` and `Strip` over a plain character. */
  lemma PlainUnfold(text: string, i: nat, code: int)
    requires i < |text| && EscapeEnd(text, i).None?
    ensures Scan(text, i, code) == Prepend([Tagged(code, text[i])], Scan(text, i + 1, code))
    ensures Strip(text, i) == [text[i]] + Strip(text, i + 1)
  {
  }

  lemma PrependChars(t: Tagged, rest: seq<Tagged>)
    ensures Chars(Prepend([t], Some(rest)).value) == [t.ch] + Chars(rest)
  {
    CharsAppend([t], rest);
  }

  /** Without an escape character from `i` on, every remaining character
      keeps the code in force at `i` (0 at the start of the text). */
  lemma {:induction false} ScanPlainText(text: string, i: nat, code: int)
    requires i <= |text|
    requires forall k :: i <= k < |text| ==> text[k] != Esc
    ensures Scan(text, i, code) == Some(TagAll(code, text[i..]))
    decreases |text| - i
  {
    if i < |text| {
      assert EscapeEnd(text, i).None?;
      ScanPlainText(text, i + 1, code);
      assert text[i..] == [text[i]] + text[i + 1..];
      assert TagAll(code, text[i..]) == [Tagged(code, text[i])] + TagAll(code, text[i + 1..]);
    }
  }

  /** No segment has empty text. */
  predicate NoEmptySegment(segments: seq<Segment>) {
    forall k :: 0 <= k < |segments| ==> segments[k].text != []
  }

  /** `if i > last_end: segments.append(...)`: the open run becomes a
      segment unless it is empty. */
  function CloseRun(segments: seq<Segment>, code: int, run: string): (r: seq<Segment>)
    requires NoEmptySegment(segments)
    ensures Flatten(r) == Flatten(segments) + TagAll(code, run)
    ensures NoEmptySegment(r)
  {
    if run == [] then
      assert Flatten(segments) + TagAll(code, run) == Flatten(segments);
      segments
    else
      assert (segments + [Segment(code, run)])[..|segments|] == segments;
      segments + [Segment(code, run)]
  }

  /** Segments whose expansion is the whole scan spell out the stripped text. */
  lemma SegmentsAreStripped(text: string, segments: seq<Segment>)
    requires Scan(text, 0, 0) == Some(Flatten(segments))
    ensures Texts(segments) == Strip(text, 0)
  {
    FlattenChars(segments);
    ScanKeepsStripped(text, 0, 0);
  }

  /** Part way through the text: the scan of the whole text is the closed
      segments, then the open run `text[lastEnd..i]` under `code`, then the
      scan of the rest. */
  ghost predicate ScannedUpTo(text: string, segments: seq<Segment>, lastEnd: nat, i: nat, code: int)
    requires lastEnd <= i <= |text|
  {
    Scan(text, 0, 0) == Prepend(Flatten(segments) + TagAll(code, text[lastEnd..i]), Scan(text, i, code))
  }

  /** A plain character extends the open run. */
  lemma PlainAdvance(text: string, segments: seq<Segment>, lastEnd: nat, i: nat, code: int)
    requires lastEnd <= i < |text| && EscapeEnd(text, i).None?
    requires ScannedUpTo(text, segments, lastEnd, i, code)
    ensures ScannedUpTo(text, segments, lastEnd, i + 1, code)
  {
    var prefix := Flatten(segments) + TagAll(code, text[lastEnd..i]);
    ChainTagAll(code, text, lastEnd, i);
    PlainStep(text, i, code, prefix);
    assert prefix + [Tagged(code, text[i])] == Flatten(segments) + TagAll(code, text[lastEnd..i + 1]);
  }

  /** An escape sequence closes the open run (into `closed`) and either fails
      the scan or opens an empty run under its code after the sequence. */
  lemma EscapeAdvance(text: string, segments: seq<Segment>, closed: seq<Segment>, lastEnd: nat, i: nat, code: int)
    requires lastEnd <= i < |text| && EscapeEnd(text, i).Some?
    requires ScannedUpTo(text, segments, lastEnd, i, code)
    requires Flatten(closed) == Flatten(segments) + TagAll(code, text[lastEnd..i])
    ensures CodeValue(EscapeParams(text, i)).None? ==> Scan(text, 0, 0).None?
    ensures CodeValue(EscapeParams(text, i)).Some? ==>
      ScannedUpTo(text, closed, EscapeEnd(text, i).value, EscapeEnd(text, i).value, CodeValue(EscapeParams(text, i)).value)
  {
    EscapeStep(text, i, code, Flatten(closed));
    var e := EscapeEnd(text, i).value;
    assert Flatten(closed) + TagAll(code, text[e..e]) == Flatten(closed);
  }

  /** At the end of the text, closing the open run yields the whole scan. */
  lemma ScanFinished(text: string, segments: seq<Segment>, closed: seq<Segment>, lastEnd: nat, code: int)
    requires lastEnd <= |text|
    requires ScannedUpTo(text, segments, lastEnd, |text|, code)
    requires Flatten(closed) == Flatten(segments) + TagAll(code, text[lastEnd..])
    ensures Scan(text, 0, 0) == Some(Flatten(closed))
  {
    assert text[lastEnd..|text|] == text[lastEnd..];
    assert Scan(text, |text|, code) == Some([]);
    assert Flatten(closed) + [] == Flatten(closed);
  }

  /** One turn of the `finditer` loop of `parse_ansi` at position `i`: an
      escape sequence closes the open run and sets the code (or yields the
      parameters `int()` rejects); any other character joins the open run. */
  method ScanStep(text: string, segments: seq<Segment>, lastEnd: nat, i: nat, code: int)
    returns (invalid: Option<string>, segments': seq<Segment>, lastEnd': nat, i': nat, code': int)
    requires lastEnd <= i < |text|
    requires NoEmptySegment(segments) && ScannedUpTo(text, segments, lastEnd, i, code)
    ensures invalid.Some? ==> Scan(text, 0, 0).None?
    ensures invalid.None? ==>
      && i < i' <= |text| && lastEnd' <= i'
      && NoEmptySegment(segments') && ScannedUpTo(text, segments', lastEnd', i', code')
  {
    var end := EscapeEnd(text, i);
    if end.Some? {
      segments' := CloseRun(segments, code, text[lastEnd..i]);
      EscapeAdvance(text, segments, segments', lastEnd, i, code);
      var params := EscapeParams(text, i);
      var value := CodeValue(params);
      if value.None? {
        return Some(params), segments', lastEnd, i, code;
      }
      invalid, lastEnd', i', code' := None, end.value, end.value, value.value;
    } else {
      PlainAdvance(text, segments, lastEnd, i, code);
      invalid, segments', lastEnd', i', code' := None, segments, lastEnd, i + 1, code;
    }
  }

  /** `parse_ansi`. */
  method ParseAnsi(text: string) returns (r: AnsiResult)
    ensures r.Parsed? <==> Scan(text, 0, 0).Some?
    ensures r.Parsed? ==> Flatten(r.segments) == Scan(text, 0, 0).value
    ensures r.Parsed? ==> Texts(r.segments) == Strip(text, 0)
    ensures r.Parsed? ==> NoEmptySegment(r.segments)
  {
    var segments: seq<Segment> := [];
    var lastEnd, currentCode, i := 0, 0, 0;
    assert Flatten(segments) + TagAll(0, text[0..0]) == [];
    assert Scan(text, 0, 0).Some? ==> [] + Scan(text, 0, 0).value == Scan(text, 0, 0).value;
    while i < |text|
      invariant 0 <= lastEnd <= i <= |text|
      invariant NoEmptySegment(segments)
      invariant ScannedUpTo(text, segments, lastEnd, i, currentCode)
      decreases |text| - i
    {
      var invalid;
      invalid, segments, lastEnd, i, currentCode := ScanStep(text, segments, lastEnd, i, currentCode);
      if invalid.Some? {
        return InvalidCode(invalid.value);
      }
    }
    ghost var open := segments;
    segments := CloseRun(segments, currentCode, text[lastEnd..]);
    ScanFinished(text, open, segments, lastEnd, currentCode);
    r := Parsed(segments);
    SegmentsAreStripped(text, segments);
  }
}

=== FILE: history.dfy ===
/** The value-level rules of the worker's chat state (telegram_worker.py):
    de-duplicating append, conversion of fetched history, the history merge,
    chat record construction, loading-progress events and the pinned-first
    ordering of the chat list. The class in worker.dfy is proved against
    these functions; the lemmas here state what the rules guarantee. */
module History {
  import opened Types
  import opened Text

  // ---------------------------------------------------------------------
  // Message identity
  // ---------------------------------------------------------------------

  predicate HasId(msgs: seq<Message>, id: MessageId) {
    exists k | 0 <= k < |msgs| :: msgs[k].id == id
  }

  ghost predicate DistinctIds(msgs: seq<Message>) {
    forall i, j :: 0 <= i < j < |msgs| ==> msgs[i].id != msgs[j].id
  }

  /** Ids strictly increasing: oldest first, as the stored sequence is meant to be. */
  ghost predicate AscendingIds(msgs: seq<Message>) {
    forall i, j :: 0 <= i < j < |msgs| ==> msgs[i].id < msgs[j].id
  }

  /** Ids strictly decreasing: the newest-first order of a history batch. */
  ghost predicate DescendingIds(msgs: seq<Message>) {
    forall i, j :: 0 <= i < j < |msgs| ==> msgs[i].id > msgs[j].id
  }

  /** `messages_per_chat.get(chat_id, [])`. */
  function StoredFor(store: map<ChatId, seq<Message>>, chatId: ChatId): seq<Message> {
    if chatId in store then store[chatId] else []
  }

  // ---------------------------------------------------------------------
  // De-duplicating append (_add_message_to_chat)
  // ---------------------------------------------------------------------

  /** The sequence a chat holds after `_add_message_to_chat`. */
  function AppendIfNew(msgs: seq<Message>, m: Message): seq<Message> {
    if HasId(msgs, m.id) then msgs else msgs + [m]
  }

  /** Afterwards the id is present, exactly one message was added when it was
      absent, and nothing was added when it was present. */
  lemma AppendIfNewEffect(msgs: seq<Message>, m: Message)
    ensures HasId(AppendIfNew(msgs, m), m.id)
    ensures !HasId(msgs, m.id) ==> AppendIfNew(msgs, m) == msgs + [m]
    ensures HasId(msgs, m.id) ==> AppendIfNew(msgs, m) == msgs
  {
    if !HasId(msgs, m.id) {
      assert (msgs + [m])[|msgs|].id == m.id;
    }
  }

  /** A sequence with distinct ids keeps distinct ids. */
  lemma AppendIfNewKeepsDistinct(msgs: seq<Message>, m: Message)
    requires DistinctIds(msgs)
    ensures DistinctIds(AppendIfNew(msgs, m))
  {
    if !HasId(msgs, m.id) {
      var r := msgs + [m];
      forall i, j | 0 <= i < j < |r| ensures r[i].id != r[j].id {
        if j == |msgs| {
          assert r[i] == msgs[i];
        }
      }
    }
  }

  /** Delivering the same message twice stores it once. */
  lemma AppendIfNewIdempotent(msgs: seq<Message>, m: Message)
    ensures AppendIfNew(AppendIfNew(msgs, m), m) == AppendIfNew(msgs, m)
  {
    AppendIfNewEffect(msgs, m);
  }

  // ---------------------------------------------------------------------
  // Message records built by the worker
  // ---------------------------------------------------------------------

  /** The record `load_chat_history` builds from one fetched message. */
  function HistoryMessage(raw: RawMessage): (m: Message)
    ensures m.id == raw.id && m.timestamp == raw.date && m.isOutgoing == raw.outgoing
    ensures m.photo == raw.photo && m.caption == raw.caption
    ensures m.photo.Some? ==> m.text != ""
    ensures Truthy(raw.text) ==> m.text == raw.text.value
    ensures !Truthy(raw.text) && raw.photo.None? ==> m.text == ""
    ensures m.fromUser == if raw.sender.Some? then raw.sender.value else "Unknown"
  {
    var text := OrElse(raw.text, "");
    var shown :=
      if raw.photo.Some? && text == "" then
        "\U{1F4F7} Photo" + (if Truthy(raw.caption) then ": " + raw.caption.value else "")
      else text;
    var sender := match raw.sender case Some(name) => name case None => "Unknown";
    Message(raw.id, shown, raw.date, sender, raw.outgoing, raw.photo, raw.caption)
  }

  /** The record the incoming-message handler builds. */
  function IncomingMessage(raw: RawMessage): (m: Message)
    ensures m.id == raw.id && m.text != "" && m.photo.None? && m.caption.None?
    ensures m.timestamp == raw.date && m.isOutgoing == raw.outgoing
    ensures Truthy(raw.text) ==> m.text == raw.text.value
    ensures !Truthy(raw.text) ==> m.text == "[media message]"
    ensures m.fromUser == if raw.sender.Some? then raw.sender.value else "Unknown"
  {
    var sender := match raw.sender case Some(name) => name case None => "Unknown";
    Message(raw.id, OrElse(raw.text, "[media message]"), raw.date, sender, raw.outgoing, None, None)
  }

  /** The record `async_send_message` builds from the service's reply. */
  function SentMessage(id: MessageId, text: string, date: int): (m: Message)
    ensures m.id == id && m.text == text && m.isOutgoing && m.fromUser == "You"
  {
    Message(id, text, date, "You", true, None, None)
  }

  /** The messages kept from a fetched batch: `None` stands for an item whose
      conversion raised, which is skipped. Order is kept (newest first). */
  function CollectedHistory(items: seq<Option<RawMessage>>): seq<Message> {
    if items == [] then []
    else
      var last := items[|items| - 1];
      CollectedHistory(items[..|items| - 1]) + (if last.Some? then [HistoryMessage(last.value)] else [])
  }

  /** Collecting distributes over concatenation: the page keeps the fetch
      order, and each fetched message yields at most its own record. */
  lemma {:induction false} CollectedHistoryAppend(a: seq<Option<RawMessage>>, b: seq<Option<RawMessage>>)
    ensures CollectedHistory(a + b) == CollectedHistory(a) + CollectedHistory(b)
    decreases |b|
  {
    if b == [] {
      assert a + b == a;
    } else {
      var b' := b[..|b| - 1];
      assert (a + b)[..|a + b| - 1] == a + b';
      CollectedHistoryAppend(a, b');
    }
  }

  lemma {:induction false} CollectedHistoryLength(items: seq<Option<RawMessage>>)
    ensures |CollectedHistory(items)| <= |items|
    ensures (forall k :: 0 <= k < |items| ==> items[k].Some?) ==> |CollectedHistory(items)| == |items|
  {
    if items != [] {
      CollectedHistoryLength(items[..|items| - 1]);
    }
  }

  // ---------------------------------------------------------------------
  // History merge (load_chat_history)
  // ---------------------------------------------------------------------

  function Reverse<T>(s: seq<T>): seq<T> {
    if s == [] then [] else [s[|s| - 1]] + Reverse(s[..|s| - 1])
  }

  lemma {:induction false} ReverseAt<T>(s: seq<T>, k: nat)
    requires k < |s|
    ensures |Reverse(s)| == |s| && Reverse(s)[k] == s[|s| - 1 - k]
  {
    ReverseLength(s);
    if k > 0 {
      ReverseAt(s[..|s| - 1], k - 1);
    }
  }

  lemma {:induction false} ReverseLength<T>(s: seq<T>)
    ensures |Reverse(s)| == |s|
  {
    if s != [] {
      ReverseLength(s[..|s| - 1]);
    }
  }

  /** `offset` of the history request: 0 for an initial load, otherwise the
      number of messages already stored for the chat. */
  function HistoryOffset(store: map<ChatId, seq<Message>>, chatId: ChatId, before: Option<MessageId>): nat {
    if before.None? then 0 else |StoredFor(store, chatId)|
  }

  /** The chat's new sequence after a non-empty batch: the batch (newest first)
      is reversed; an older batch goes in front of what is stored, otherwise it
      replaces it. */
  function MergeHistory(stored: seq<Message>, batch: seq<Message>, older: bool): seq<Message> {
    if older then Reverse(batch) + stored else Reverse(batch)
  }

  /** Element-wise content of the merge. */
  lemma MergeHistoryAt(stored: seq<Message>, batch: seq<Message>, older: bool)
    ensures var r := MergeHistory(stored, batch, older);
      && |r| == |batch| + (if older then |stored| else 0)
      && (forall k :: 0 <= k < |batch| ==> r[k] == batch[|batch| - 1 - k])
      && (older ==> r[|batch|..] == stored)
  {
    ReverseLength(batch);
    forall k | 0 <= k < |batch| ensures MergeHistory(stored, batch, older)[k] == batch[|batch| - 1 - k] {
      ReverseAt(batch, k);
    }
  }

  /** A newest-first batch whose ids are all below the stored ones, merged in
      front of an ascending sequence, gives an ascending sequence. */
  lemma MergeOlderAscending(stored: seq<Message>, batch: seq<Message>)
    requires AscendingIds(stored) && DescendingIds(batch)
    requires forall i, j :: 0 <= i < |batch| && 0 <= j < |stored| ==> batch[i].id < stored[j].id
    ensures AscendingIds(MergeHistory(stored, batch, true))
  {
    var r := MergeHistory(stored, batch, true);
    MergeHistoryAt(stored, batch, true);
    forall i, j | 0 <= i < j < |r| ensures r[i].id < r[j].id {
      if j < |batch| {
        assert r[i] == batch[|batch| - 1 - i] && r[j] == batch[|batch| - 1 - j];
      } else if i < |batch| {
        assert r[i] == batch[|batch| - 1 - i] && r[j] == stored[j - |batch|];
      } else {
        assert r[i] == stored[i - |batch|] && r[j] == stored[j - |batch|];
      }
    }
  }

  /** An initial load of a newest-first batch stores it oldest first. */
  lemma MergeInitialAscending(stored: seq<Message>, batch: seq<Message>)
    requires DescendingIds(batch)
    ensures AscendingIds(MergeHistory(stored, batch, false))
  {
    var r := MergeHistory(stored, batch, false);
    MergeHistoryAt(stored, batch, false);
    forall i, j | 0 <= i < j < |r| ensures r[i].id < r[j].id {
      assert r[i] == batch[|batch| - 1 - i] && r[j] == batch[|batch| - 1 - j];
    }
  }

  /** Distinct ids survive an older-batch merge only when the batch is disjoint
      from what is stored: the merge itself removes nothing. */
  lemma MergeOlderDistinct(stored: seq<Message>, batch: seq<Message>)
    requires DistinctIds(stored) && DistinctIds(batch)
    requires forall i, j :: 0 <= i < |batch| && 0 <= j < |stored| ==> batch[i].id != stored[j].id
    ensures DistinctIds(MergeHistory(stored, batch, true))
  {
    var r := MergeHistory(stored, batch, true);
    MergeHistoryAt(stored, batch, true);
    forall i, j | 0 <= i < j < |r| ensures r[i].id != r[j].id {
      if j < |batch| {
        assert r[i] == batch[|batch| - 1 - i] && r[j] == batch[|batch| - 1 - j];
      } else if i < |batch| {
        assert r[i] == batch[|batch| - 1 - i] && r[j] == stored[j - |batch|];
      } else {
        assert r[i] == stored[i - |batch|] && r[j] == stored[j - |batch|];
      }
    }
  }

  /** The merge does not de-duplicate: a re-fetched message that is already
      stored ends up stored twice. */
  lemma MergeOlderKeepsDuplicates(m: Message)
    ensures !DistinctIds(MergeHistory([m], [m], true))
  {
    var r := MergeHistory([m], [m], true);
    assert Reverse([m]) == [m];
    assert r[0].id == r[1].id;
  }

  // ---------------------------------------------------------------------
  // Chat directory (_process_dialog, the dialog loop, the sort)
  // ---------------------------------------------------------------------

  /** `chat.title or chat.first_name or 'Unknown'`. */
  function ChatTitle(chat: RawChat): (t: string)
    ensures t != ""
    ensures Truthy(chat.title) ==> t == chat.title.value
    ensures !Truthy(chat.title) && Truthy(chat.firstName) ==> t == chat.firstName.value
    ensures !Truthy(chat.title) && !Truthy(chat.firstName) ==> t == "Unknown"
  {
    OrElse(chat.title, OrElse(chat.firstName, "Unknown"))
  }

  /** The chat record `_process_dialog` builds from a dialog. */
  function ProcessDialog(d: RawDialog): (c: ChatInfo)
    ensures c.id == d.chat.id && c.isPinned == d.isPinned && c.title != ""
    ensures c.title == ChatTitle(d.chat)
    ensures c.kind == d.chat.kind && c.unreadMark == d.unreadMark
    ensures c.unreadMessagesCount == d.unreadMessagesCount && c.unreadMentionsCount == d.unreadMentionsCount
    ensures c.isVerified == d.chat.isVerified && c.isRestricted == d.chat.isRestricted
    ensures c.isScam == d.chat.isScam && c.isFake == d.chat.isFake
    ensures c.memberCount == d.chat.membersCount
  {
    ChatInfo(d.chat.id, ChatTitle(d.chat), d.isPinned, d.chat.kind, d.unreadMark,
             d.unreadMessagesCount, d.unreadMentionsCount, d.chat.isVerified, d.chat.isRestricted,
             d.chat.isScam, d.chat.isFake, d.chat.membersCount)
  }

  /** The chats kept by the dialog loop, in enumeration order: `None` stands
      for a dialog whose processing raised, which is skipped. */
  function ProcessedChats(dialogs: seq<Option<RawDialog>>): seq<ChatInfo> {
    if dialogs == [] then []
    else
      var last := dialogs[|dialogs| - 1];
      ProcessedChats(dialogs[..|dialogs| - 1]) + (if last.Some? then [ProcessDialog(last.value)] else [])
  }

  /** The dialog loop distributes over concatenation: the chats keep the
      enumeration order, and each dialog yields at most its own chat. */
  lemma {:induction false} ProcessedChatsAppend(a: seq<Option<RawDialog>>, b: seq<Option<RawDialog>>)
    ensures ProcessedChats(a + b) == ProcessedChats(a) + ProcessedChats(b)
    decreases |b|
  {
    if b == [] {
      assert a + b == a;
    } else {
      var b' := b[..|b| - 1];
      assert (a + b)[..|a + b| - 1] == a + b';
      ProcessedChatsAppend(a, b');
    }
  }

  /** Every dialog that processed is kept, and nothing else. */
  lemma {:induction false} ProcessedChatsSkipsFailures(dialogs: seq<Option<RawDialog>>)
    ensures |ProcessedChats(dialogs)| <= |dialogs|
    ensures forall c :: c in ProcessedChats(dialogs) <==> ProcessedFrom(dialogs, c)
  {
    if dialogs != [] {
      var init := dialogs[..|dialogs| - 1];
      var last := dialogs[|dialogs| - 1];
      ProcessedChatsSkipsFailures(init);
      assert ProcessedChats(dialogs) == ProcessedChats(init) + (if last.Some? then [ProcessDialog(last.value)] else []);
      forall c ensures c in ProcessedChats(dialogs) <==> ProcessedFrom(dialogs, c) {
        ProcessedFromSnoc(dialogs, c);
      }
    }
  }

  /** Some dialog of `dialogs` processes to the chat `c`. */
  ghost predicate ProcessedFrom(dialogs: seq<Option<RawDialog>>, c: ChatInfo) {
    exists k :: 0 <= k < |dialogs| && dialogs[k].Some? && c == ProcessDialog(dialogs[k].value)
  }

  lemma ProcessedFromSnoc(dialogs: seq<Option<RawDialog>>, c: ChatInfo)
    requires dialogs != []
    ensures ProcessedFrom(dialogs, c) <==>
      ProcessedFrom(dialogs[..|dialogs| - 1], c) ||
      (dialogs[|dialogs| - 1].Some? && c == ProcessDialog(dialogs[|dialogs| - 1].value))
  {
    var init := dialogs[..|dialogs| - 1];
    if ProcessedFrom(init, c) {
      var k :| 0 <= k < |init| && init[k].Some? && c == ProcessDialog(init[k].value);
      assert dialogs[k] == init[k];
    }
    if ProcessedFrom(dialogs, c) {
      var k :| 0 <= k < |dialogs| && dialogs[k].Some? && c == ProcessDialog(dialogs[k].value);
      if k < |init| {
        assert init[k] == dialogs[k];
      }
    }
  }

  /** The text of the progress event sent after `n` chats. */
  function ProgressText(n: nat): string {
    "Loading chats... (" + NatToDecimal(n) + " loaded)"
  }

  /** The progress events the dialog loop sends while `n` chats are loaded:
      one after each chat whose running count is a multiple of 5. */
  function ProgressEvents(n: nat): seq<Event> {
    if n == 0 then []
    else ProgressEvents(n - 1) + (if n % 5 == 0 then [LoadingProgress(ProgressText(n))] else [])
  }

  /** `n / 5` progress events are sent, the k-th one reporting 5(k+1) chats. */
  lemma {:induction false} ProgressEventsShape(n: nat)
    ensures |ProgressEvents(n)| == n / 5
    ensures forall k :: 0 <= k < n / 5 ==> ProgressEvents(n)[k] == LoadingProgress(ProgressText(5 * (k + 1)))
  {
    if n > 0 {
      ProgressEventsShape(n - 1);
    }
  }

  function PinnedChats(chats: seq<ChatInfo>): (r: seq<ChatInfo>)
    ensures forall k :: 0 <= k < |r| ==> r[k].isPinned
  {
    if chats == [] then []
    else PinnedChats(chats[..|chats| - 1]) + (if chats[|chats| - 1].isPinned then [chats[|chats| - 1]] else [])
  }

  function UnpinnedChats(chats: seq<ChatInfo>): (r: seq<ChatInfo>)
    ensures forall k :: 0 <= k < |r| ==> !r[k].isPinned
  {
    if chats == [] then []
    else UnpinnedChats(chats[..|chats| - 1]) + (if !chats[|chats| - 1].isPinned then [chats[|chats| - 1]] else [])
  }

  /** `all_chats.sort(key=lambda x: not x['is_pinned'])`: Python's sort is
      stable, so the result is the pinned chats in their order, then the
      others in their order. */
  function PinnedFirst(chats: seq<ChatInfo>): seq<ChatInfo> {
    PinnedChats(chats) + UnpinnedChats(chats)
  }

  /** Sorted by the key: no unpinned chat precedes a pinned one. */
  ghost predicate PinnedBeforeUnpinned(chats: seq<ChatInfo>) {
    forall i, j :: 0 <= i < j < |chats| && chats[j].isPinned ==> chats[i].isPinned
  }

  lemma {:induction false} PartitionMultiset(chats: seq<ChatInfo>)
    ensures multiset(PinnedChats(chats)) + multiset(UnpinnedChats(chats)) == multiset(chats)
  {
    if chats != [] {
      var init := chats[..|chats| - 1];
      PartitionMultiset(init);
      assert chats == init + [chats[|chats| - 1]];
    }
  }

  lemma {:induction false} FiltersOfSorted(chats: seq<ChatInfo>)
    requires PinnedBeforeUnpinned(chats)
    ensures chats == PinnedChats(chats) + UnpinnedChats(chats)
  {
    if chats != [] {
      var init := chats[..|chats| - 1];
      var last := chats[|chats| - 1];
      FiltersOfSorted(init);
      if last.isPinned {
        // every earlier chat is pinned, so the unpinned filter of init is empty
        assert forall k :: 0 <= k < |init| ==> init[k].isPinned;
        AllPinned(init);
      }
    }
  }

  lemma {:induction false} AllPinned(chats: seq<ChatInfo>)
    requires forall k :: 0 <= k < |chats| ==> chats[k].isPinned
    ensures UnpinnedChats(chats) == [] && PinnedChats(chats) == chats
  {
    if chats != [] {
      AllPinned(chats[..|chats| - 1]);
      assert chats == chats[..|chats| - 1] + [chats[|chats| - 1]];
    }
  }

  lemma {:induction false} PinnedOfPartition(a: seq<ChatInfo>, b: seq<ChatInfo>)
    requires forall k :: 0 <= k < |a| ==> a[k].isPinned
    requires forall k :: 0 <= k < |b| ==> !b[k].isPinned
    ensures PinnedChats(a + b) == a && UnpinnedChats(a + b) == b
    decreases |b|
  {
    if b == [] {
      assert a + b == a;
      AllPinned(a);
    } else {
      var b' := b[..|b| - 1];
      assert (a + b)[..|a + b| - 1] == a + b';
      PinnedOfPartition(a, b');
    }
  }

  /** The pinned-first order is a stable sort on the key: a permutation, sorted
      by the key, that keeps the order within each group. */
  lemma PinnedFirstIsStableSort(chats: seq<ChatInfo>)
    ensures multiset(PinnedFirst(chats)) == multiset(chats)
    ensures PinnedBeforeUnpinned(PinnedFirst(chats))
    ensures PinnedChats(PinnedFirst(chats)) == PinnedChats(chats)
    ensures UnpinnedChats(PinnedFirst(chats)) == UnpinnedChats(chats)
  {
    PartitionMultiset(chats);
    PinnedOfPartition(PinnedChats(chats), UnpinnedChats(chats));
    ConcatSorted(PinnedChats(chats), UnpinnedChats(chats));
  }

  lemma ConcatSorted(p: seq<ChatInfo>, u: seq<ChatInfo>)
    requires forall k :: 0 <= k < |p| ==> p[k].isPinned
    requires forall k :: 0 <= k < |u| ==> !u[k].isPinned
    ensures PinnedBeforeUnpinned(p + u)
  {
    var r := p + u;
    forall j | |p| <= j < |r| ensures !r[j].isPinned {
      assert r[j] == u[j - |p|];
    }
    forall i, j | 0 <= i < j < |r| && r[j].isPinned ensures r[i].isPinned {
      assert r[i] == p[i];
    }
  }

  /** And it is the only such order: any sequence sorted by the key with the
      same groups is the pinned-first order. */
  lemma StableSortUnique(chats: seq<ChatInfo>, r: seq<ChatInfo>)
    requires PinnedBeforeUnpinned(r)
    requires PinnedChats(r) == PinnedChats(chats) && UnpinnedChats(r) == UnpinnedChats(chats)
    ensures r == PinnedFirst(chats)
  {
    FiltersOfSorted(r);
  }
}

=== FILE: scenarios.dfy ===
/** Worked examples that drive the worker and the UI screen through short
    sessions, with the remote service's answers given as data. Each states
    its outcome in its contract. */
module Scenarios {
  import opened Types
  import opened History
  import opened Worker
  import Ui

  function Raw(id: MessageId): RawMessage {
    RawMessage(id, Some("hi"), 1000 + id, Some("Ann"), false, None, None)
  }

  function Dialog(id: ChatId, pinned: bool): RawDialog {
    RawDialog(RawChat(id, Some("chat"), None, "private", false, false, false, false, None), pinned, false, 0, 0)
  }

  /** The ids of a list of records, in order. */
  function Ids<T>(xs: seq<T>, id: T -> int): (r: seq<int>)
    ensures |r| == |xs| && forall k :: 0 <= k < |r| ==> r[k] == id(xs[k])
  {
    seq(|xs|, k requires 0 <= k < |xs| => id(xs[k]))
  }

  lemma CollectedTwo(a: RawMessage, b: RawMessage)
    ensures CollectedHistory([Some(a), Some(b)]) == [HistoryMessage(a), HistoryMessage(b)]
  {
    assert [Some(a), Some(b)][..1] == [Some(a)];
    assert [Some(a)][..0] == [];
    assert CollectedHistory([Some(a)]) == [HistoryMessage(a)];
  }

  lemma CollectedThree(a: RawMessage, b: RawMessage, c: RawMessage)
    ensures CollectedHistory([Some(a), Some(b), Some(c)]) == [HistoryMessage(a), HistoryMessage(b), HistoryMessage(c)]
  {
    assert [Some(a), Some(b), Some(c)][..2] == [Some(a), Some(b)];
    CollectedTwo(a, b);
  }

  lemma ReverseTwo<T>(x: T, y: T)
    ensures Reverse([x, y]) == [y, x]
  {
    assert [x, y][..1] == [x];
    assert [x][..0] == [];
    assert Reverse([x]) == [x];
  }

  lemma ReverseThree<T>(x: T, y: T, z: T)
    ensures Reverse([x, y, z]) == [z, y, x]
  {
    assert [x, y, z][..2] == [x, y];
    ReverseTwo(x, y);
  }

  /** The chat records of the four dialogs, pinned ones first. */
  lemma DirectoryOrder(dialogs: seq<Option<RawDialog>>)
    requires dialogs == [Some(Dialog(1, false)), Some(Dialog(2, true)), Some(Dialog(3, true)), Some(Dialog(4, false))]
    ensures |ProcessedChats(dialogs)| == 4
    ensures Ids(PinnedFirst(ProcessedChats(dialogs)), (c: ChatInfo) => c.id) == [2, 3, 1, 4]
  {
    var c1, c2, c3, c4 := ProcessDialog(Dialog(1, false)), ProcessDialog(Dialog(2, true)), ProcessDialog(Dialog(3, true)), ProcessDialog(Dialog(4, false));
    ProcessedFour(dialogs);
    PinnedFirstFour(c1, c2, c3, c4);
  }

  lemma ProcessedFour(dialogs: seq<Option<RawDialog>>)
    requires |dialogs| == 4 && forall k :: 0 <= k < 4 ==> dialogs[k].Some?
    ensures ProcessedChats(dialogs) == [ProcessDialog(dialogs[0].value), ProcessDialog(dialogs[1].value), ProcessDialog(dialogs[2].value), ProcessDialog(dialogs[3].value)]
  {
    assert dialogs[..4] == dialogs;
    assert dialogs[..3][..2] == dialogs[..2];
    assert dialogs[..2][..1] == dialogs[..1];
    assert dialogs[..1][..0] == [];
    assert ProcessedChats(dialogs[..1]) == [ProcessDialog(dialogs[0].value)];
    assert ProcessedChats(dialogs[..2]) == ProcessedChats(dialogs[..1]) + [ProcessDialog(dialogs[1].value)];
    assert ProcessedChats(dialogs[..3]) == ProcessedChats(dialogs[..2]) + [ProcessDialog(dialogs[2].value)];
  }

  lemma PinnedFirstFour(c1: ChatInfo, c2: ChatInfo, c3: ChatInfo, c4: ChatInfo)
    requires !c1.isPinned && c2.isPinned && c3.isPinned && !c4.isPinned
    ensures PinnedFirst([c1, c2, c3, c4]) == [c2, c3, c1, c4]
  {
    var chats := [c1, c2, c3, c4];
    assert chats[..3] == [c1, c2, c3];
    assert chats[..3][..2] == [c1, c2];
    assert chats[..2][..1] == [c1];
    assert chats[..1][..0] == [];
    assert PinnedChats([c1]) == [] && UnpinnedChats([c1]) == [c1];
    assert PinnedChats([c1, c2]) == [c2] && UnpinnedChats([c1, c2]) == [c1];
    assert PinnedChats([c1, c2, c3]) == [c2, c3] && UnpinnedChats([c1, c2, c3]) == [c1];
  }

  /** A worker whose client started with an empty chat list, with the start-up
      events already taken by the UI. */
  method StartedWorker() returns (w: TelegramWorker)
    ensures fresh(w)
    ensures w.hasApp && w.activeChatId == None && w.messagesPerChat == map[] && w.messagesLoading == {} && w.uiQueue == []
  {
    w := new TelegramWorker();
    var _ := w.StartTelegramClient(Started, DialogStream([], Completed));
    var _ := w.TakeEvent();
    var _ := w.TakeEvent();
  }

  /** Creating the client raises: the error is queued, no client is set,
      and a later chat switch requests no history and queues nothing. */
  method ClientFailedExample() returns (errors: seq<Event>, request: Option<HistoryRequest>)
    ensures errors == [Error(StartErrorText("boom"))]
    ensures request == None
  {
    var w := new TelegramWorker();
    var _ := w.StartTelegramClient(ClientFailed("boom"), DialogStream([], Completed));
    errors := w.uiQueue;
    request := w.SetCurrentChat(1, Fetched([]));
  }

  /** Chats 1 to 4 arrive with 2 and 3 pinned: the directory is 2, 3, 1, 4,
      after one "Loading chats..." progress event. */
  method DirectoryOrderExample() returns (progress: Option<Event>, ids: seq<ChatId>)
    ensures progress == Some(LoadingProgress(LoadingChatsText))
    ensures ids == [2, 3, 1, 4]
  {
    var w := new TelegramWorker();
    var dialogs := [Some(Dialog(1, false)), Some(Dialog(2, true)), Some(Dialog(3, true)), Some(Dialog(4, false))];
    var _ := w.StartTelegramClient(Started, DialogStream(dialogs, Completed));
    DirectoryOrder(dialogs);
    ProgressEventsShape(4);
    assert ProgressEvents(4) == [];
    assert w.uiQueue == [LoadingProgress(LoadingChatsText), ChatsLoaded(PinnedFirst(ProcessedChats(dialogs)), true)];
    progress := w.TakeEvent();
    var loaded := w.TakeEvent();
    ids := Ids(loaded.value.chats, (c: ChatInfo) => c.id);
  }

  /** Chat 5 holds 10, 11, 12; loading before 10 fetches 9, 8 (newest first):
      the stored list becomes 8 to 12 and the event is marked older. */
  method PaginationExample() returns (ids: seq<MessageId>, older: bool)
    ensures ids == [8, 9, 10, 11, 12]
    ensures older
  {
    var w := StartedWorker();
    ghost var h8, h9, h10, h11, h12 := HistoryMessage(Raw(8)), HistoryMessage(Raw(9)), HistoryMessage(Raw(10)), HistoryMessage(Raw(11)), HistoryMessage(Raw(12));
    CollectedThree(Raw(12), Raw(11), Raw(10));
    ReverseThree(h12, h11, h10);
    var _ := w.SetCurrentChat(5, Fetched([Some(Raw(12)), Some(Raw(11)), Some(Raw(10))]));
    assert w.messagesPerChat[5] == [h10, h11, h12];
    var _ := w.TakeEvent();
    CollectedTwo(Raw(9), Raw(8));
    ReverseTwo(h9, h8);
    assert w.uiQueue == [] && w.hasApp && w.activeChatId == Some(5) && 5 !in w.messagesLoading;
    var request := w.LoadChatHistory(5, DefaultHistoryLimit, Some(10), Fetched([Some(Raw(9)), Some(Raw(8))]));
    assert request.Some?;
    assert IsOlderLoad(Some(10));
    assert MergeHistory([h10, h11, h12], [h9, h8], true) == [h8, h9, h10, h11, h12];
    assert w.uiQueue == [ChatHistoryLoaded(5, [h8, h9, h10, h11, h12], true)];
    var e := w.TakeEvent();
    ids := Ids(e.value.messages, (m: Message) => m.id);
    older := e.value.isOlderMessages;
  }

  /** A second history load for the same chat while the first is in flight
      makes no request; the mark is released even when the fetch fails. */
  method SingleFlightExample(chatId: ChatId) returns (first: Option<HistoryRequest>, second: Option<HistoryRequest>, inFlightAfter: bool)
    ensures first == Some(HistoryRequest(chatId, DefaultHistoryLimit, 0))
    ensures second.None?
    ensures !inFlightAfter
  {
    var w := StartedWorker();
    w.SwitchActiveChat(chatId);
    first := w.BeginHistoryLoad(chatId, DefaultHistoryLimit, None);
    second := w.BeginHistoryLoad(chatId, DefaultHistoryLimit, None);
    w.FinishHistoryLoad(chatId, None, FetchFailed("timed out"));
    inFlightAfter := chatId in w.messagesLoading;
  }

  /** The same incoming message delivered twice is stored once and announced once. */
  method IncomingTwiceExample(chatId: ChatId, raw: RawMessage) returns (stored: seq<Message>, events: seq<Event>)
    ensures stored == [IncomingMessage(raw)]
    ensures events == [NewMessage(chatId, IncomingMessage(raw))]
  {
    var w := StartedWorker();
    var _ := w.HandleIncoming(chatId, raw);
    assert w.messagesPerChat[chatId] == [IncomingMessage(raw)];
    assert w.messagesPerChat[chatId][0].id == raw.id;
    var _ := w.HandleIncoming(chatId, raw);
    stored := w.messagesPerChat[chatId];
    events := w.uiQueue;
  }

  /** Switching from chat `a` to chat `b` drops `a`'s cached messages. */
  method SwitchDropsCacheExample(a: ChatId, b: ChatId) returns (cachedBefore: bool, cachedAfter: bool)
    requires a != b
    ensures cachedBefore && !cachedAfter
  {
    var w := StartedWorker();
    var _ := w.SetCurrentChat(a, Fetched([Some(Raw(1))]));
    cachedBefore := a in w.messagesPerChat;
    var _ := w.SetCurrentChat(b, FetchFailed("offline"));
    cachedAfter := a in w.messagesPerChat;
  }

  /** A failed send leaves the cache alone and reports the reason. */
  method FailedSendExample(chatId: ChatId) returns (events: seq<Event>, cached: bool)
    requires chatId != 0
    ensures events == [Error(SendErrorText("flood wait"))]
    ensures !cached
  {
    var w := StartedWorker();
    w.SwitchActiveChat(chatId);
    var _ := w.SendMessage("hello", SendFailed("flood wait"));
    events := w.uiQueue;
    cached := chatId in w.messagesPerChat;
  }

  /** The UI folds the directory event into its chat list and asks the worker
      for the first chat; the first up-arrow in a short chat asks for the page
      before its oldest message. */
  method ScreenExample() returns (first: Ui.Intent, second: Ui.Intent, third: Ui.Intent, scroll: int)
    ensures first == Ui.SwitchChat(7)
    ensures second == Ui.NoIntent
    ensures third == Ui.LoadOlder(7, DefaultHistoryLimit, 40)
    ensures scroll == 0
  {
    var screen := new Ui.ChatScreen(30, {});
    var chat := ProcessDialog(Dialog(7, false));
    first := screen.HandleEvent(ChatsLoaded([chat], true), 0);
    var page := [HistoryMessage(Raw(40)), HistoryMessage(Raw(41))];
    second := screen.HandleEvent(ChatHistoryLoaded(7, page, false), 0);
    third := screen.HandleInput(Ui.Key(Ui.KeyUp));
    scroll := screen.scrollPosition;
  }

  /** An error note that ends up first in the chat's list stops the main loop
      at the next up-arrow. */
  method NoticeFirstExample() returns (intent: Ui.Intent)
    ensures intent == Ui.Abort
  {
    var screen := new Ui.ChatScreen(30, {});
    var chat := ProcessDialog(Dialog(7, false));
    var _ := screen.HandleEvent(ChatsLoaded([chat], true), 0);
    var _ := screen.HandleEvent(Error("offline"), 5);
    intent := screen.HandleInput(Ui.Key(Ui.KeyUp));
  }
}

=== FILE: text.dfy ===
/** String and integer helpers that reproduce the Python built-ins the client
    relies on: decimal conversion (`str(n)`, `int(s)`), slicing with negative
    bounds, `str.isspace`, `str.ljust`. */
module Text {

  predicate IsDigit(c: char) {
    '0' <= c <= '9'
  }

  predicate AllDigits(s: string) {
    forall k :: 0 <= k < |s| ==> IsDigit(s[k])
  }

  function DigitChar(d: nat): (c: char)
    requires d < 10
    ensures IsDigit(c)
  {
    ['0', '1', '2', '3', '4', '5', '6', '7', '8', '9'][d]
  }

  function DigitValue(c: char): (d: nat)
    requires IsDigit(c)
    ensures d < 10 && DigitChar(d) == c
  {
    (c as int - '0' as int) as nat
  }

  /** `str(n)` for a natural number: its decimal digits, no leading zero. */
  function NatToDecimal(n: nat): (s: string)
    ensures |s| > 0 && AllDigits(s)
    ensures |s| > 1 ==> s[0] != '0'
  {
    if n < 10 then [DigitChar(n)] else NatToDecimal(n / 10) + [DigitChar(n % 10)]
  }

  /** `int(s)` for a string of ASCII digits (leading zeros allowed). */
  function DecimalValue(s: string): nat
    requires AllDigits(s)
  {
    if s == [] then 0 else 10 * DecimalValue(s[..|s| - 1]) + DigitValue(s[|s| - 1])
  }

  /** `int(str(n)) == n`. */
  lemma {:induction false} DecimalRoundTrip(n: nat)
    ensures DecimalValue(NatToDecimal(n)) == n
  {
    var s := NatToDecimal(n);
    if n >= 10 {
      DecimalRoundTrip(n / 10);
      assert s[..|s| - 1] == NatToDecimal(n / 10);
    }
  }

  /** `int()` ignores one leading zero. */
  lemma {:induction false} DecimalLeadingZero(s: string)
    requires AllDigits(s)
    ensures AllDigits(['0'] + s) && DecimalValue(['0'] + s) == DecimalValue(s)
  {
    var t := ['0'] + s;
    if s != [] {
      assert t[..|t| - 1] == ['0'] + s[..|s| - 1];
      DecimalLeadingZero(s[..|s| - 1]);
    }
  }

  function Zeros(z: nat): (s: string)
    ensures |s| == z && AllDigits(s)
  {
    if z == 0 then [] else ['0'] + Zeros(z - 1)
  }

  /** `int()` ignores any number of leading zeros. */
  lemma {:induction false} DecimalLeadingZeros(z: nat, s: string)
    requires AllDigits(s)
    ensures AllDigits(Zeros(z) + s) && DecimalValue(Zeros(z) + s) == DecimalValue(s)
  {
    if z == 0 {
      assert Zeros(z) + s == s;
    } else {
      DecimalLeadingZeros(z - 1, s);
      assert Zeros(z) + s == ['0'] + (Zeros(z - 1) + s);
      DecimalLeadingZero(Zeros(z - 1) + s);
    }
  }

  /** `str(i)` for any integer. */
  function IntToDecimal(i: int): (s: string)
    ensures |s| > 0
    ensures i >= 0 ==> s == NatToDecimal(i)
    ensures i < 0 ==> s[0] == '-' && s[1..] == NatToDecimal(-i)
  {
    if i < 0 then "-" + NatToDecimal(-i) else NatToDecimal(i)
  }

  /** Python's normalisation of a slice bound `k` against a length `n`. */
  function PyBound(k: int, n: nat): (b: nat)
    ensures b <= n
    ensures 0 <= k <= n ==> b == k
    ensures -(n as int) <= k < 0 ==> b == n + k
    ensures k > n ==> b == n
    ensures k < -(n as int) ==> b == 0
  {
    if k < 0 then (if n + k < 0 then 0 else n + k) else if k > n then n else k
  }

  /** Python's `s[lo:hi]`. */
  function PySlice<T>(s: seq<T>, lo: int, hi: int): (r: seq<T>)
    ensures |r| <= |s|
    ensures PyBound(lo, |s|) <= PyBound(hi, |s|) ==> r == s[PyBound(lo, |s|)..PyBound(hi, |s|)]
    ensures PyBound(lo, |s|) > PyBound(hi, |s|) ==> r == []
  {
    var a, b := PyBound(lo, |s|), PyBound(hi, |s|);
    if a <= b then s[a..b] else []
  }

  /** Python's `str.isspace` on one character. */
  predicate IsSpace(c: char) {
    c == ' ' || ('\t' <= c <= '\r') || ('\U{1C}' <= c <= '\U{1F}') || c == '\U{85}' || c == '\U{A0}'
    || c == '\U{1680}' || ('\U{2000}' <= c <= '\U{200A}') || c == '\U{2028}' || c == '\U{2029}'
    || c == '\U{202F}' || c == '\U{205F}' || c == '\U{3000}'
  }

  /** The truth value of `s.strip()`: some character is not white space. */
  predicate HasNonSpace(s: string) {
    exists k | 0 <= k < |s| :: !IsSpace(s[k])
  }

  /** Python's `s.ljust(w)` with the default space fill. */
  function Ljust(s: string, w: int): (r: string)
    ensures |r| == if |s| < w then w else |s|
    ensures r[..|s|] == s
    ensures forall k :: |s| <= k < |r| ==> r[k] == ' '
  {
    if |s| < w then s + seq(w - |s|, _ => ' ') else s
  }

  predicate StartsWith<T(==)>(s: seq<T>, p: seq<T>) {
    |p| <= |s| && s[..|p|] == p
  }

  predicate EndsWith<T(==)>(s: seq<T>, p: seq<T>) {
    |p| <= |s| && s[|s| - |p|..] == p
  }

  /** Concatenation of a sequence of sequences (`''.join` and friends). */
  function Join<T>(parts: seq<seq<T>>): seq<T> {
    if parts == [] then [] else Join(parts[..|parts| - 1]) + parts[|parts| - 1]
  }

  lemma {:induction false} JoinAppend<T>(a: seq<seq<T>>, b: seq<seq<T>>)
    ensures Join(a + b) == Join(a) + Join(b)
    decreases |b|
  {
    if b == [] {
      assert a + b == a;
    } else {
      var b' := b[..|b| - 1];
      assert (a + b)[..|a + b| - 1] == a + b';
      JoinAppend(a, b');
    }
  }
}

=== FILE: types.dfy ===
/** The records the worker and the terminal UI exchange: messages, chat
    records, the events of the worker-to-UI queue, and the raw items the remote
    service hands to the worker. Python dictionaries with fixed keys become
    datatypes; `None` becomes `Option`. */
module Types {

  datatype Option<+T> = None | Some(value: T)

  type ChatId = int
  type MessageId = int

  /** Opaque handle on a photo; the photo itself is fetched on demand and never stored. */
  datatype Photo = Photo(fileId: string)

  /** A stored message. `photo` and `caption` are only present for messages
      that came from a history fetch; live and sent messages carry `None`. */
  datatype Message = Message(
    id: MessageId,
    text: string,
    timestamp: int,
    fromUser: string,
    isOutgoing: bool,
    photo: Option<Photo>,
    caption: Option<string>)

  /** A chat record as produced by the dialog loader. */
  datatype ChatInfo = ChatInfo(
    id: ChatId,
    title: string,
    isPinned: bool,
    kind: string,
    unreadMark: bool,
    unreadMessagesCount: int,
    unreadMentionsCount: int,
    isVerified: bool,
    isRestricted: bool,
    isScam: bool,
    isFake: bool,
    memberCount: Option<int>)

  /** The events the worker puts on the UI queue. */
  datatype Event =
    | LoadingProgress(text: string)
    | ChatsLoaded(chats: seq<ChatInfo>, isInitial: bool)
    | ChatHistoryLoaded(chatId: ChatId, messages: seq<Message>, isOlderMessages: bool)
    | NewMessage(chatId: ChatId, message: Message)
    | Error(text: string)

  /** A message object as the remote service delivers it. `sender` is the
      first name of the sending user, `None` when there is no sending user. */
  datatype RawMessage = RawMessage(
    id: MessageId,
    text: Option<string>,
    date: int,
    sender: Option<string>,
    outgoing: bool,
    photo: Option<Photo>,
    caption: Option<string>)

  /** A chat object as the remote service delivers it. */
  datatype RawChat = RawChat(
    id: ChatId,
    title: Option<string>,
    firstName: Option<string>,
    kind: string,
    isVerified: bool,
    isRestricted: bool,
    isScam: bool,
    isFake: bool,
    membersCount: Option<int>)

  /** One entry of the remote dialog list. */
  datatype RawDialog = RawDialog(
    chat: RawChat,
    isPinned: bool,
    unreadMark: bool,
    unreadMessagesCount: int,
    unreadMentionsCount: int)

  /** Python truthiness of an optional string: present and not empty. */
  predicate Truthy(s: Option<string>) {
    s.Some? && s.value != ""
  }

  /** Python's `a or b` on an optional string. */
  function OrElse(a: Option<string>, b: string): (r: string)
    ensures Truthy(a) ==> r == a.value
    ensures !Truthy(a) ==> r == b
  {
    if Truthy(a) then a.value else b
  }

  /** Python truthiness of an optional id: present and not zero. */
  predicate TruthyId(id: Option<int>) {
    id.Some? && id.value != 0
  }
}

=== FILE: ui.dfy ===
/** The terminal UI's state and the non-drawing part of its main loop
    (main.py): the favourites and filter state of `UIState`, folding worker
    events into the per-chat message lists, and the effect of each key.

    Calls the UI makes into the worker (`set_current_chat`, `send_message`,
    `load_chat_history`) are returned as an `Intent` for the caller to carry
    out, in the order the source schedules them. */
module Ui {
  import opened Types
  import opened Text
  import opened View
  import Worker

  /** An entry of the UI's per-chat list: a message from the worker, or an
      error note the UI adds itself (text, time of arrival, no id). */
  datatype Entry = Received(message: Message) | Notice(text: string, timestamp: int)

  /** A call into the worker requested by one step of the UI. `Abort` is the
      uncaught exception that ends the main loop (and stops the worker). */
  datatype Intent =
    | NoIntent
    | SwitchChat(chatId: ChatId)
    | LoadOlder(chatId: ChatId, limit: nat, beforeId: MessageId)
    | Send(text: string)
    | Abort

  /** One unit of user input: a key code from `getch`, a mouse event with
      the button state from `getmouse`, or a character assembled from several
      input bytes. */
  datatype Input = Key(code: int) | Wheel(buttons: nat) | Typed(ch: char)

  /** What the main loop does with an input. */
  datatype Action =
    | Ignore
    | ToggleFocus
    | ClearInput
    | Submit
    | Backspace
    | Append(ch: char)
    | SwitchMode
    | AddFavorite
    | RemoveFavorite
    | Navigate(delta: int)
    | ScrollOlder(step: nat)
    | ScrollNewer(step: nat)

  const ConnectingText := "Connecting to Telegram..."
  const ErrorPrefix := "Error: "

  const KeyTab := 9
  const KeyEnter := 10
  const KeyReturn := 13
  const KeyEscape := 27
  const KeyPlus := 43
  const KeyHelp := 63
  const KeyUnderscore := 95
  const KeyOpenBrace := 123
  const KeyCloseBrace := 125
  const KeyDelete := 127
  const KeySection := 167
  const KeyDown := 258
  const KeyUp := 259
  const KeyBackspace := 263
  const KeyShiftDown := 336
  const KeyShiftUp := 337
  const WheelUpMask := 0x40000
  const WheelDownMask := 0x80000

  /** `buttons & mask != 0` for a single-bit mask. */
  predicate HasButton(buttons: nat, mask: nat)
    requires mask > 0
  {
    (buttons / mask) % 2 == 1
  }

  /** The key dispatch of the main loop. Help and preview only open popups;
      in the input box every other key edits the input, elsewhere keys
      navigate. Enter outside the input box does nothing. */
  function Classify(input: Input, focused: bool): (a: Action)
    ensures focused ==> a.Ignore? || a.ToggleFocus? || a.ClearInput? || a.Submit? || a.Backspace? || a.Append?
    ensures !focused ==> !(a.ClearInput? || a.Submit? || a.Backspace? || a.Append?)
  {
    match input
    case Key(k) =>
      if k == KeyHelp then Ignore
      else if k == KeyTab then ToggleFocus
      else if k == KeyEscape then (if focused then ClearInput else Ignore)
      else if k == KeyEnter then (if focused then Submit else Ignore)
      else if k == KeySection then Ignore
      else if focused then
        if k == KeyBackspace || k == KeyDelete then Backspace
        else if k == KeyReturn then Submit
        else if 32 <= k <= 126 then Append(k as char)
        else Ignore
      else if k == KeyOpenBrace || k == KeyCloseBrace then SwitchMode
      else if k == KeyPlus then AddFavorite
      else if k == KeyUnderscore then RemoveFavorite
      else if k == KeyShiftUp then Navigate(-1)
      else if k == KeyShiftDown then Navigate(1)
      else if k == KeyUp then ScrollOlder(KeyScrollStep)
      else if k == KeyDown then ScrollNewer(KeyScrollStep)
      else Ignore
    case Wheel(b) =>
      if focused then Ignore
      else if HasButton(b, WheelUpMask) then ScrollOlder(WheelScrollStep)
      else if HasButton(b, WheelDownMask) then ScrollNewer(WheelScrollStep)
      else Ignore
    case Typed(c) => if focused then Append(c) else Ignore
  }

  /** The bindings the help popup lists, each with the focus it needs:
      Shift+Up/Down navigate, Shift+[ and Shift+] (`{`, `}`) switch the
      mode, Shift+= and Shift+- (`+`, `_`) add and remove a favourite, the
      arrows scroll by one, Tab toggles the focus in both states, Esc
      clears and Enter sends in the input box, and `?` changes no state. */
  lemma HelpPopupBindings()
    ensures Classify(Key(KeyShiftUp), false) == Navigate(-1)
    ensures Classify(Key(KeyShiftDown), false) == Navigate(1)
    ensures Classify(Key(KeyOpenBrace), false) == SwitchMode && Classify(Key(KeyCloseBrace), false) == SwitchMode
    ensures Classify(Key(KeyPlus), false) == AddFavorite
    ensures Classify(Key(KeyUnderscore), false) == RemoveFavorite
    ensures Classify(Key(KeyUp), false) == ScrollOlder(KeyScrollStep)
    ensures Classify(Key(KeyDown), false) == ScrollNewer(KeyScrollStep)
    ensures Classify(Key(KeyTab), false) == ToggleFocus && Classify(Key(KeyTab), true) == ToggleFocus
    ensures Classify(Key(KeyEscape), true) == ClearInput && Classify(Key(KeyEscape), false) == Ignore
    ensures Classify(Key(KeyEnter), true) == Submit && Classify(Key(KeyReturn), true) == Submit
    ensures Classify(Key(KeyEnter), false) == Ignore
    ensures Classify(Key(KeyHelp), false) == Ignore && Classify(Key(KeyHelp), true) == Ignore
    ensures Classify(Key(KeyBackspace), true) == Backspace && Classify(Key(KeyDelete), true) == Backspace
  {
  }

  /** The mouse wheel scrolls by three outside the input box: wheel up
      towards older messages, otherwise wheel down towards newer ones. */
  lemma WheelBindings(buttons: nat)
    ensures HasButton(buttons, WheelUpMask) ==> Classify(Wheel(buttons), false) == ScrollOlder(WheelScrollStep)
    ensures !HasButton(buttons, WheelUpMask) && HasButton(buttons, WheelDownMask)
      ==> Classify(Wheel(buttons), false) == ScrollNewer(WheelScrollStep)
    ensures !HasButton(buttons, WheelUpMask) && !HasButton(buttons, WheelDownMask) ==> Classify(Wheel(buttons), false) == Ignore
    ensures Classify(Wheel(buttons), true) == Ignore
  {
  }

  /** A printable ASCII key typed in the input box is appended as that character. */
  lemma PrintableKeyAppends(k: int)
    requires 32 <= k <= 126 && k != KeyHelp
    ensures Classify(Key(k), true) == Append(k as char)
  {
  }

  // ---------------------------------------------------------------------
  // Chat filtering

  /** `[c for c in chats if c['id'] in favorites]`. */
  function FavoriteChats(chats: seq<ChatInfo>, favorites: set<ChatId>): (r: seq<ChatInfo>)
    ensures |r| <= |chats|
    ensures forall k :: 0 <= k < |r| ==> r[k].id in favorites
  {
    if chats == [] then []
    else
      var init := FavoriteChats(chats[..|chats| - 1], favorites);
      var last := chats[|chats| - 1];
      if last.id in favorites then init + [last] else init
  }

  /** Filtering distributes over concatenation, so it keeps the original order. */
  lemma {:induction false} FavoriteChatsAppend(a: seq<ChatInfo>, b: seq<ChatInfo>, favorites: set<ChatId>)
    ensures FavoriteChats(a + b, favorites) == FavoriteChats(a, favorites) + FavoriteChats(b, favorites)
    decreases |b|
  {
    if b == [] {
      assert a + b == a;
    } else {
      var b' := b[..|b| - 1];
      assert (a + b)[..|a + b| - 1] == a + b';
      FavoriteChatsAppend(a, b', favorites);
    }
  }

  /** Exactly the chats whose id is a favourite are kept. */
  lemma {:induction false} FavoriteChatsMembers(chats: seq<ChatInfo>, favorites: set<ChatId>)
    ensures forall c :: c in FavoriteChats(chats, favorites) <==> c in chats && c.id in favorites
  {
    if chats != [] {
      var init := chats[..|chats| - 1];
      FavoriteChatsMembers(init, favorites);
      assert chats == init + [chats[|chats| - 1]];
    }
  }

  /** The chats shown in display mode `mode`: all of them in mode 1, the
      favourites in mode 2. */
  function Filtered(mode: int, favorites: set<ChatId>, chats: seq<ChatInfo>): (r: seq<ChatInfo>)
    ensures mode != 2 ==> r == chats
    ensures mode == 2 ==> forall c :: c in r <==> c in chats && c.id in favorites
  {
    if mode == 2 then FavoriteChatsMembers(chats, favorites); FavoriteChats(chats, favorites) else chats
  }

  /** The selection after `filter_chats`: pulled back to the last chat when
      past the end, reset to 0 when nothing is shown. */
  function Clamp(idx: int, n: nat): (r: int)
    ensures n > 0 && idx >= 0 ==> 0 <= r < n
    ensures n == 0 ==> r == 0
    ensures 0 <= idx < n ==> r == idx
  {
    if n > 0 && idx >= n then n - 1 else if n == 0 then 0 else idx
  }

  lemma ClampIdempotent(idx: int, n: nat)
    requires idx >= 0
    ensures Clamp(Clamp(idx, n), n) == Clamp(idx, n)
  {
  }

  /** The chat at the selection, if the selection is inside the list. */
  function Selected(filtered: seq<ChatInfo>, idx: int): Option<ChatInfo> {
    if 0 <= idx < |filtered| then Some(filtered[idx]) else None
  }

  /** After clamping there is a current chat exactly when some chat is shown,
      and it is one of the shown chats. */
  lemma SelectedAfterClamp(filtered: seq<ChatInfo>, idx: int)
    requires idx >= 0
    ensures Selected(filtered, Clamp(idx, |filtered|)).Some? <==> filtered != []
    ensures Selected(filtered, Clamp(idx, |filtered|)).Some? ==> Selected(filtered, Clamp(idx, |filtered|)).value in filtered
  {
  }

  function AsEntries(messages: seq<Message>): (r: seq<Entry>)
    ensures |r| == |messages|
    ensures forall k :: 0 <= k < |r| ==> r[k] == Received(messages[k])
  {
    seq(|messages|, k requires 0 <= k < |messages| => Received(messages[k]))
  }

  /** `messages_by_chat.get(chat_id, [])`. */
  function EntriesFor(byChat: map<ChatId, seq<Entry>>, chatId: ChatId): seq<Entry> {
    if chatId in byChat then byChat[chatId] else []
  }

  /** Whether an Enter in the input box sends: some non-blank text and a current chat. */
  predicate CanSend(input: string, current: Option<ChatInfo>) {
    HasNonSpace(input) && current.Some?
  }

  // ---------------------------------------------------------------------
  // UIState

  class UIState {
    var displayMode: int
    var favorites: set<ChatId>
    var filteredChatIdx: int
    var inputFocused: bool

    ghost predicate Valid()
      reads this
    {
      (displayMode == 1 || displayMode == 2) && filteredChatIdx >= 0
    }

    /** A fresh state in "All" mode with the favourites read at start-up
        (an empty set when there is no file or it cannot be read). */
    constructor(saved: set<ChatId>)
      ensures Valid()
      ensures displayMode == 1 && favorites == saved && filteredChatIdx == 0 && !inputFocused
    {
      displayMode := 1;
      favorites := saved;
      filteredChatIdx := 0;
      inputFocused := false;
    }

    /** `add_favorite`: true, and the id added, exactly when it was absent. */
    method AddFavorite(chatId: ChatId) returns (added: bool)
      modifies this`favorites
      ensures added <==> chatId !in old(favorites)
      ensures favorites == old(favorites) + {chatId}
    {
      added := chatId !in favorites;
      if added {
        favorites := favorites + {chatId};
      }
    }

    /** `remove_favorite`: true, and the id removed, exactly when it was present. */
    method RemoveFavorite(chatId: ChatId) returns (removed: bool)
      modifies this`favorites
      ensures removed <==> chatId in old(favorites)
      ensures favorites == old(favorites) - {chatId}
    {
      removed := chatId in favorites;
      if removed {
        favorites := favorites - {chatId};
      }
    }

    /** `filter_chats`: the shown chats, with the selection pulled inside them. */
    method FilterChats(chats: seq<ChatInfo>) returns (filtered: seq<ChatInfo>)
      requires Valid()
      modifies this`filteredChatIdx
      ensures Valid()
      ensures filtered == Filtered(displayMode, favorites, chats)
      ensures filteredChatIdx == Clamp(old(filteredChatIdx), |filtered|)
    {
      if displayMode == 2 {
        filtered := FavoriteChats(chats, favorites);
      } else {
        filtered := chats;
      }
      if filtered != [] && filteredChatIdx >= |filtered| {
        filteredChatIdx := |filtered| - 1;
      } else if filtered == [] {
        filteredChatIdx := 0;
      }
    }
  }

  // ---------------------------------------------------------------------
  // The main loop's state

  class ChatScreen {
    /** Terminal height in rows. */
    const height: int
    const ui: UIState
    var chats: seq<ChatInfo>
    var messagesByChat: map<ChatId, seq<Entry>>
    var scrollPosition: int
    var currentInput: string
    /** Text of the loading popup on screen, if any. */
    var loadingPopup: Option<string>

    ghost predicate Valid()
      reads this, ui
    {
      ui.Valid() && scrollPosition >= 0
    }

    constructor(height: int, saved: set<ChatId>)
      ensures Valid() && fresh(ui)
      ensures this.height == height
      ensures ui.displayMode == 1 && ui.favorites == saved && ui.filteredChatIdx == 0 && !ui.inputFocused
      ensures chats == [] && messagesByChat == map[] && scrollPosition == 0 && currentInput == ""
      ensures loadingPopup == Some(ConnectingText)
    {
      this.height := height;
      ui := new UIState(saved);
      chats := [];
      messagesByChat := map[];
      scrollPosition := 0;
      currentInput := "";
      loadingPopup := Some(ConnectingText);
    }

    function Shown(): seq<ChatInfo>
      reads this, ui
    {
      Filtered(ui.displayMode, ui.favorites, chats)
    }

    /** The selection as `filter_chats` leaves it. */
    function ClampedIdx(): int
      reads this, ui
    {
      Clamp(ui.filteredChatIdx, |Shown()|)
    }

    /** `get_current_chat()`. */
    function CurrentChatOf(): Option<ChatInfo>
      reads this, ui
    {
      Selected(Shown(), ClampedIdx())
    }

    /** The entries of the current chat (`[]` without one). */
    function CurrentEntries(): seq<Entry>
      reads this, ui
    {
      if CurrentChatOf().Some? then EntriesFor(messagesByChat, CurrentChatOf().value.id) else []
    }

    /** `get_current_chat`: filters (moving the selection inside the shown
        chats) and returns the selected chat. */
    method CurrentChat() returns (current: Option<ChatInfo>)
      requires Valid()
      modifies ui`filteredChatIdx
      ensures Valid()
      ensures ui.filteredChatIdx == old(ClampedIdx())
      ensures current == old(CurrentChatOf()) == CurrentChatOf()
      ensures current.Some? <==> Shown() != []
      ensures current.Some? ==> current.value in Shown()
    {
      var filtered := ui.FilterChats(chats);
      SelectedAfterClamp(filtered, old(ui.filteredChatIdx));
      ClampIdempotent(old(ui.filteredChatIdx), |filtered|);
      if filtered != [] && 0 <= ui.filteredChatIdx < |filtered| {
        current := Some(filtered[ui.filteredChatIdx]);
      } else {
        current := None;
      }
    }

    /** One event taken from the worker's queue. */
    method HandleEvent(e: Event, now: int) returns (intent: Intent)
      requires Valid()
      modifies this`messagesByChat, this`scrollPosition, this`chats, this`loadingPopup, ui`filteredChatIdx
      ensures Valid()
      ensures ui.filteredChatIdx == if e.NewMessage? || e.Error? then old(ClampedIdx()) else old(ui.filteredChatIdx)
      ensures loadingPopup == match e
        case LoadingProgress(text) => Some(text)
        case ChatsLoaded(_, _) => None
        case _ => old(loadingPopup)
      ensures chats == if e.ChatsLoaded? then e.chats else old(chats)
      ensures messagesByChat == match e
        case NewMessage(id, m) => old(messagesByChat)[id := EntriesFor(old(messagesByChat), id) + [Received(m)]]
        case Error(text) =>
          if old(CurrentChatOf()).Some? && old(CurrentChatOf()).value.id != 0 then
            var id := old(CurrentChatOf()).value.id;
            old(messagesByChat)[id := EntriesFor(old(messagesByChat), id) + [Notice(ErrorPrefix + text, now)]]
          else old(messagesByChat)
        case ChatHistoryLoaded(id, ms, _) => old(messagesByChat)[id := AsEntries(ms)]
        case _ => old(messagesByChat)
      ensures scrollPosition == match e
        case NewMessage(id, _) =>
          if old(CurrentChatOf()).Some? && old(CurrentChatOf()).value.id == id then 0 else old(scrollPosition)
        case ChatHistoryLoaded(_, ms, older) =>
          if older then Max(0, old(scrollPosition) + |ms|) else old(scrollPosition)
        case _ => old(scrollPosition)
      ensures intent == if e.ChatsLoaded? && e.chats != [] then SwitchChat(e.chats[0].id) else NoIntent
    {
      intent := NoIntent;
      match e
      case LoadingProgress(text) =>
        loadingPopup := Some(text);
      case NewMessage(chatId, message) =>
        messagesByChat := messagesByChat[chatId := EntriesFor(messagesByChat, chatId) + [Received(message)]];
        var current := CurrentChat();
        if current.Some? && current.value.id == chatId {
          scrollPosition := 0;
        }
      case Error(text) =>
        var current := CurrentChat();
        if current.Some? && current.value.id != 0 {
          var id := current.value.id;
          messagesByChat := messagesByChat[id := EntriesFor(messagesByChat, id) + [Notice(ErrorPrefix + text, now)]];
        }
      case ChatsLoaded(loaded, _) =>
        loadingPopup := None;
        chats := loaded;
        if loaded != [] {
          intent := SwitchChat(loaded[0].id);
        }
      case ChatHistoryLoaded(chatId, messages, older) =>
        messagesByChat := messagesByChat[chatId := AsEntries(messages)];
        if older {
          scrollPosition := Max(0, scrollPosition + |messages|);
        }
    }

    /** Enter in the input box: send the text to the current chat. */
    method SubmitInput(current: Option<ChatInfo>) returns (intent: Intent)
      modifies this`currentInput, this`scrollPosition
      ensures CanSend(old(currentInput), current) ==> intent == Send(old(currentInput)) && currentInput == "" && scrollPosition == 0
      ensures !CanSend(old(currentInput), current) ==>
        intent == NoIntent && currentInput == old(currentInput) && scrollPosition == old(scrollPosition)
    {
      intent := NoIntent;
      if HasNonSpace(currentInput) && current.Some? {
        intent := Send(currentInput);
        currentInput := "";
        scrollPosition := 0;
      }
    }

    /** Shift+Up / Shift+Down: move the selection with wrap-around and switch
        chats when it moved. */
    method NavigateChats(delta: int) returns (intent: Intent)
      requires Valid()
      modifies ui`filteredChatIdx, this`scrollPosition
      ensures Valid()
      ensures Shown() == [] ==> ui.filteredChatIdx == 0 && scrollPosition == old(scrollPosition) && intent == NoIntent
      ensures Shown() != [] ==>
        var n := StepIndex(old(ClampedIdx()), |Shown()|, delta);
        && ui.filteredChatIdx == n
        && (n != old(ClampedIdx()) ==> intent == SwitchChat(Shown()[n].id) && scrollPosition == 0)
        && (n == old(ClampedIdx()) ==> intent == NoIntent && scrollPosition == old(scrollPosition))
    {
      intent := NoIntent;
      var filtered := ui.FilterChats(chats);
      if filtered != [] {
        var previous := ui.filteredChatIdx;
        ui.filteredChatIdx := StepIndex(ui.filteredChatIdx, |filtered|, delta);
        if previous != ui.filteredChatIdx {
          intent := SwitchChat(filtered[ui.filteredChatIdx].id);
          scrollPosition := 0;
        }
      }
    }

    /** Up arrow or wheel up: scroll towards older messages, asking for the
        page before the oldest entry when close to the top. An error note in
        first place has no id: the lookup raises and ends the main loop. */
    method ScrollTowardsOlder(step: nat, current: Option<ChatInfo>, entries: seq<Entry>) returns (intent: Intent)
      requires Valid()
      modifies this`scrollPosition
      ensures Valid()
      ensures entries == [] ==> intent == NoIntent && scrollPosition == old(scrollPosition)
      ensures entries != [] ==>
        var maxScroll := MaxScroll(|entries|, height);
        var target := ScrollUp(old(scrollPosition), step, maxScroll);
        var wants := WantsOlder(target, maxScroll) && current.Some? && current.value.id != 0;
        && (wants && entries[0].Notice? ==> intent == Abort && scrollPosition == old(scrollPosition))
        && (wants && entries[0].Received? ==>
              intent == LoadOlder(current.value.id, Worker.DefaultHistoryLimit, entries[0].message.id) && scrollPosition == target)
        && (!wants ==> intent == NoIntent && scrollPosition == target)
    {
      intent := NoIntent;
      if |entries| > 0 {
        var maxScroll := MaxScroll(|entries|, height);
        var target := ScrollUp(scrollPosition, step, maxScroll);
        if WantsOlder(target, maxScroll) {
          if current.Some? && current.value.id != 0 {
            match entries[0]
            case Notice(_, _) =>
              return Abort;
            case Received(oldest) =>
              intent := LoadOlder(current.value.id, Worker.DefaultHistoryLimit, oldest.id);
          }
        }
        scrollPosition := target;
      }
    }

    /** Down arrow or wheel down: scroll towards newer messages. */
    method ScrollTowardsNewer(step: nat, entries: seq<Entry>)
      requires Valid()
      modifies this`scrollPosition
      ensures Valid()
      ensures scrollPosition == if entries == [] then old(scrollPosition) else ScrollDown(old(scrollPosition), step)
    {
      if |entries| > 0 {
        scrollPosition := ScrollDown(scrollPosition, step);
      }
    }

    /** One input of the main loop, after the redraw has filtered the chats. */
    method HandleInput(input: Input) returns (intent: Intent)
      requires Valid()
      modifies this`scrollPosition, this`currentInput, ui
      ensures Valid()
      ensures var a := Classify(input, old(ui.inputFocused));
        var current := old(CurrentChatOf());
        var entries := old(CurrentEntries());
        && ui.inputFocused == (if a.ToggleFocus? then !old(ui.inputFocused) else old(ui.inputFocused))
        && ui.displayMode == (if a.SwitchMode? then ToggleMode(old(ui.displayMode)) else old(ui.displayMode))
        && ui.favorites == (
             if a.AddFavorite? && current.Some? && current.value.id != 0 then old(ui.favorites) + {current.value.id}
             else if a.RemoveFavorite? && current.Some? && current.value.id != 0 then old(ui.favorites) - {current.value.id}
             else old(ui.favorites))
        && currentInput == (match a
             case ClearInput => ""
             case Backspace => PySlice(old(currentInput), 0, -1)
             case Append(c) => old(currentInput) + [c]
             case Submit => if CanSend(old(currentInput), current) then "" else old(currentInput)
             case _ => old(currentInput))
        && (!a.Navigate? ==> ui.filteredChatIdx == old(ClampedIdx()))
        && (a.Navigate? && old(Shown()) != [] ==> ui.filteredChatIdx == StepIndex(old(ClampedIdx()), |old(Shown())|, a.delta))
        && (a.Submit? ==> intent == (if CanSend(old(currentInput), current) then Send(old(currentInput)) else NoIntent))
        && (a.Submit? ==> scrollPosition == if CanSend(old(currentInput), current) then 0 else old(scrollPosition))
        && (a.ScrollOlder? && entries == [] ==> intent == NoIntent && scrollPosition == old(scrollPosition))
        && (a.ScrollNewer? ==> scrollPosition == if entries == [] then old(scrollPosition) else ScrollDown(old(scrollPosition), a.step))
        && (a.ScrollOlder? && entries != [] ==>
              var maxScroll := MaxScroll(|entries|, height);
              var target := ScrollUp(old(scrollPosition), a.step, maxScroll);
              var wants := WantsOlder(target, maxScroll) && current.Some? && current.value.id != 0;
              && (wants && entries[0].Notice? ==> intent == Abort && scrollPosition == old(scrollPosition))
              && (wants && entries[0].Received? ==>
                    intent == LoadOlder(current.value.id, Worker.DefaultHistoryLimit, entries[0].message.id) && scrollPosition == target)
              && (!wants ==> intent == NoIntent && scrollPosition == target))
        && (!(a.Submit? || a.Navigate? || a.ScrollOlder?) ==> intent == NoIntent)
        && (!(a.Submit? || a.Navigate? || a.ScrollOlder? || a.ScrollNewer?) ==> scrollPosition == old(scrollPosition))
        && (a.Navigate? && old(Shown()) != [] && ui.filteredChatIdx != old(ClampedIdx()) ==>
              intent == SwitchChat(old(Shown())[ui.filteredChatIdx].id) && scrollPosition == 0)
        && (a.Navigate? && (old(Shown()) == [] || ui.filteredChatIdx == old(ClampedIdx())) ==>
              intent == NoIntent && scrollPosition == old(scrollPosition))
    {
      var current := CurrentChat();
      var entries := if current.Some? then EntriesFor(messagesByChat, current.value.id) else [];
      intent := NoIntent;
      var action := Classify(input, ui.inputFocused);
      match action
      case Ignore =>
      case ToggleFocus =>
        ui.inputFocused := !ui.inputFocused;
      case ClearInput =>
        currentInput := "";
      case Submit =>
        intent := SubmitInput(current);
      case Backspace =>
        currentInput := PySlice(currentInput, 0, -1);
      case Append(c) =>
        currentInput := currentInput + [c];
      case SwitchMode =>
        ui.displayMode := ToggleMode(ui.displayMode);
      case AddFavorite =>
        if current.Some? && current.value.id != 0 {
          var _ := ui.AddFavorite(current.value.id);
        }
      case RemoveFavorite =>
        if current.Some? && current.value.id != 0 {
          var _ := ui.RemoveFavorite(current.value.id);
        }
      case Navigate(delta) =>
        intent := NavigateChats(delta);
      case ScrollOlder(step) =>
        intent := ScrollTowardsOlder(step, current, entries);
      case ScrollNewer(step) =>
        ScrollTowardsNewer(step, entries);
    }
  }
}

=== FILE: view.dfy ===
/** The arithmetic and string results of the terminal UI's drawing code in
    main.py: which messages the message pane shows, how far it may scroll,
    when scrolling asks for older history, how the chat index wraps, how long
    lines are split and wrapped, and what a sidebar row and the status line
    contain. Nothing here draws; the functions compute what would be drawn. */
module View {
  import opened Types
  import opened Text

  /** Rows the UI keeps for the chat header, input box and status line; the
      message pane is `height - 8` rows tall, `height - 10` inside its border. */
  const PaneMargin := 8
  const ScrollThreshold := 10
  const KeyScrollStep := 1
  const WheelScrollStep := 3

  function Max(a: int, b: int): int { if a >= b then a else b }
  function Min(a: int, b: int): int { if a <= b then a else b }

  // ---------------------------------------------------------------------
  // Message pane viewport (draw_messages)

  /** First message shown: the pane is filled from the newest message minus
      the scroll offset. */
  function StartIndex(total: nat, available: int, scroll: int): int {
    Max(0, total - available - scroll)
  }

  /** One past the last message shown. */
  function EndIndex(total: nat, available: int, scroll: int): int {
    Min(total, StartIndex(total, available, scroll) + available)
  }

  /** The message drawn in reverse video: `scroll` messages above the newest. */
  function HighlightedIndex(total: nat, scroll: int): int {
    total - scroll - 1
  }

  /** The shown slice lies inside the list and is at most one pane high. */
  lemma ViewportBounds(total: nat, available: int, scroll: int)
    requires available >= 0 && scroll >= 0
    ensures 0 <= StartIndex(total, available, scroll) <= EndIndex(total, available, scroll) <= total
    ensures EndIndex(total, available, scroll) - StartIndex(total, available, scroll) <= available
  {
  }

  /** Without scrolling the newest message is in the shown slice. */
  lemma ViewportShowsNewest(total: nat, available: int)
    requires available >= 1 && total >= 1
    ensures EndIndex(total, available, 0) == total
    ensures StartIndex(total, available, 0) <= total - 1
  {
  }

  /** The highlighted message is in the shown slice exactly when the scroll
      offset points inside the list. */
  lemma HighlightVisible(total: nat, available: int, scroll: int)
    requires available >= 1 && scroll >= 0
    ensures (StartIndex(total, available, scroll) <= HighlightedIndex(total, scroll) < EndIndex(total, available, scroll))
      <==> scroll < total
  {
  }

  // ---------------------------------------------------------------------
  // Scrolling (the KEY_UP / KEY_DOWN / wheel branches of main)

  /** `max(0, len(current_messages) - (height - 8))`. */
  function MaxScroll(total: nat, height: int): (m: int)
    ensures m >= 0
    ensures m >= total - (height - PaneMargin)
    ensures m == 0 || m == total - (height - PaneMargin)
  {
    Max(0, total - (height - PaneMargin))
  }

  /** Scrolling towards older messages by `step`, capped at `maxScroll`. */
  function ScrollUp(scroll: int, step: nat, maxScroll: int): int {
    Min(scroll + step, maxScroll)
  }

  /** Scrolling towards newer messages by `step`, never below 0. */
  function ScrollDown(scroll: int, step: nat): int {
    Max(0, scroll - step)
  }

  /** Whether a scroll-up ends close enough to the top to ask for older history. */
  predicate WantsOlder(newScroll: int, maxScroll: int) {
    newScroll >= maxScroll - ScrollThreshold
  }

  /** Scrolling up never leaves `[0, maxScroll]` and moves by at most `step`;
      below the cap it moves by exactly `step`. */
  lemma ScrollUpBounds(scroll: int, step: nat, maxScroll: int)
    requires 0 <= scroll && 0 <= maxScroll
    ensures ScrollUp(scroll, step, maxScroll) <= maxScroll
    ensures ScrollUp(scroll, step, maxScroll) <= scroll + step
    ensures scroll <= maxScroll ==> scroll <= ScrollUp(scroll, step, maxScroll)
    ensures scroll + step <= maxScroll ==> ScrollUp(scroll, step, maxScroll) == scroll + step
  {
  }

  /** Scrolling down stays non-negative and moves by exactly `step` unless it hits 0. */
  lemma ScrollDownBounds(scroll: int, step: nat)
    requires 0 <= scroll
    ensures 0 <= ScrollDown(scroll, step) <= scroll
    ensures scroll >= step ==> ScrollDown(scroll, step) == scroll - step
    ensures scroll < step ==> ScrollDown(scroll, step) == 0
  {
  }

  /** Scrolling down undoes a scroll up that was not capped. */
  lemma ScrollRoundTrip(scroll: int, step: nat, maxScroll: int)
    requires 0 <= scroll && scroll + step <= maxScroll
    ensures ScrollDown(ScrollUp(scroll, step, maxScroll), step) == scroll
  {
  }

  /** With at most `ScrollThreshold` extra messages above the pane every
      scroll-up asks for older history. */
  lemma ShortHistoryAlwaysWantsOlder(total: nat, height: int, scroll: int, step: nat)
    requires 0 <= scroll
    requires total <= height - PaneMargin + ScrollThreshold
    ensures WantsOlder(ScrollUp(scroll, step, MaxScroll(total, height)), MaxScroll(total, height))
  {
  }

  /** The cap is two rows larger than the pane's inner height: once the list
      has at least `height - 8` messages, no scroll offset up to the cap
      brings the two oldest loaded messages into the shown slice. */
  lemma FullScrollHidesOldest(total: nat, height: int, scroll: int)
    requires height >= PaneMargin + 2
    requires total >= height - PaneMargin
    requires 0 <= scroll <= MaxScroll(total, height)
    ensures StartIndex(total, height - PaneMargin - 2, scroll) >= 2
    ensures scroll == MaxScroll(total, height) ==> StartIndex(total, height - PaneMargin - 2, scroll) == 2
  {
  }

  /** After an older batch the offset grows by the length of the whole merged
      list, not of the batch, so it passes the cap as soon as the merged list
      is longer than the pane. */
  lemma OlderLoadPassesCap(scroll: int, merged: nat, height: int)
    requires scroll >= 0 && height > PaneMargin
    requires merged > height - PaneMargin
    ensures Max(0, scroll + merged) > MaxScroll(merged, height)
  {
  }

  // ---------------------------------------------------------------------
  // Chat navigation and display mode

  /** Shift+Up / Shift+Down: the index moves by `delta` modulo the list length. */
  function StepIndex(idx: int, n: nat, delta: int): (r: int)
    requires n > 0
    ensures 0 <= r < n
  {
    (idx + delta) % n
  }

  /** The two neighbours of an index, with wrap-around at both ends. */
  lemma StepNeighbours(idx: int, n: nat)
    requires 0 <= idx < n
    ensures StepIndex(idx, n, 1) == if idx == n - 1 then 0 else idx + 1
    ensures StepIndex(idx, n, -1) == if idx == 0 then n - 1 else idx - 1
  {
  }

  /** One step down undoes one step up and vice versa. */
  lemma StepRoundTrip(idx: int, n: nat)
    requires 0 <= idx < n
    ensures StepIndex(StepIndex(idx, n, 1), n, -1) == idx
    ensures StepIndex(StepIndex(idx, n, -1), n, 1) == idx
  {
    StepNeighbours(idx, n);
    StepNeighbours(StepIndex(idx, n, 1), n);
    StepNeighbours(StepIndex(idx, n, -1), n);
  }

  /** A step changes the index exactly when there is more than one chat, so a
      single chat is never re-selected by navigation. */
  lemma StepChangesIndex(idx: int, n: nat, delta: int)
    requires 0 <= idx < n
    requires delta == 1 || delta == -1
    ensures StepIndex(idx, n, delta) != idx <==> n > 1
  {
    StepNeighbours(idx, n);
  }

  /** `3 - display_mode`: swaps "All" (1) and "Favorites" (2). */
  function ToggleMode(mode: int): (r: int)
    ensures mode == 1 ==> r == 2
    ensures mode == 2 ==> r == 1
  {
    3 - mode
  }

  lemma ToggleModeInvolution(mode: int)
    ensures ToggleMode(ToggleMode(mode)) == mode
  {
  }

  // ---------------------------------------------------------------------
  // Line splitting and wrapping (draw_messages)

  /** `s.split('\n')`. */
  function SplitLines(s: string): (lines: seq<string>)
    ensures |lines| >= 1
    ensures forall k :: 0 <= k < |lines| ==> '\n' !in lines[k]
  {
    if s == [] then [[]]
    else
      var init := SplitLines(s[..|s| - 1]);
      var c := s[|s| - 1];
      if c == '\n' then init + [[]]
      else init[..|init| - 1] + [init[|init| - 1] + [c]]
  }

  /** `'\n'.join(lines)`. */
  function JoinLines(lines: seq<string>): string
    requires |lines| >= 1
  {
    if |lines| == 1 then lines[0] else JoinLines(lines[..|lines| - 1]) + "\n" + lines[|lines| - 1]
  }

  lemma JoinLinesExtendLast(lines: seq<string>, c: char)
    requires |lines| >= 1
    ensures JoinLines(lines[..|lines| - 1] + [lines[|lines| - 1] + [c]]) == JoinLines(lines) + [c]
  {
    var ls := lines[..|lines| - 1] + [lines[|lines| - 1] + [c]];
    if |lines| > 1 {
      assert ls[..|ls| - 1] == lines[..|lines| - 1];
    }
  }

  /** Joining the split pieces with newlines gives the text back. */
  lemma {:induction false} SplitLinesRoundTrip(s: string)
    ensures JoinLines(SplitLines(s)) == s
  {
    if s != [] {
      var init := SplitLines(s[..|s| - 1]);
      SplitLinesRoundTrip(s[..|s| - 1]);
      var c := s[|s| - 1];
      if c == '\n' {
        assert (init + [[]])[..|init|] == init;
      } else {
        JoinLinesExtendLast(init, c);
      }
      assert s[..|s| - 1] + [c] == s;
    }
  }

  /** `[line[i:i+w] for i in range(0, len(line), w)]` for a positive width. */
  function Chunks(line: string, w: nat): (parts: seq<string>)
    requires w > 0
    ensures forall k :: 0 <= k < |parts| ==> 0 < |parts[k]| <= w
    decreases |line|
  {
    if line == [] then [] else if |line| <= w then [line] else [line[..w]] + Chunks(line[w..], w)
  }

  /** The chunks put back together give the line; all but the last are full. */
  lemma {:induction false} ChunksRoundTrip(line: string, w: nat)
    requires w > 0
    ensures Join(Chunks(line, w)) == line
    ensures forall k :: 0 <= k < |Chunks(line, w)| - 1 ==> |Chunks(line, w)[k]| == w
    decreases |line|
  {
    if line != [] && |line| > w {
      ChunksRoundTrip(line[w..], w);
      JoinAppend([line[..w]], Chunks(line[w..], w));
      assert Join([line[..w]]) == line[..w] by {
        assert [line[..w]][..0] == [];
      }
      assert line[..w] + line[w..] == line;
    } else if line != [] {
      assert Join([line]) == line by {
        assert [line][..0] == [];
      }
    }
  }

  /** The screen lines of one logical line in a pane `maxX` columns wide: the
      line itself when it fits between the borders, otherwise chunks of
      `maxX - 3` characters. `None` where `range` raises (a step of 0). A
      negative step gives an empty range, so nothing is drawn. */
  function WrapLine(line: string, maxX: int): (r: Option<seq<string>>)
    ensures |line| <= maxX - 2 ==> r == Some([line])
    ensures r.None? <==> (|line| > maxX - 2 && maxX == 3)
    ensures |line| > maxX - 2 && maxX < 3 ==> r == Some([])
    ensures |line| > maxX - 2 && maxX > 3 ==> r.Some? && Join(r.value) == line
  {
    if |line| <= maxX - 2 then Some([line])
    else if maxX > 3 then
      ChunksRoundTrip(line, maxX - 3);
      Some(Chunks(line, maxX - 3))
    else if maxX == 3 then None
    else Some([])
  }

  /** Every wrapped piece fits between the pane's borders. */
  lemma WrapLineFits(line: string, maxX: int)
    requires WrapLine(line, maxX).Some?
    ensures forall k :: 0 <= k < |WrapLine(line, maxX).value| ==> |WrapLine(line, maxX).value[k]| <= maxX - 2
  {
  }

  // ---------------------------------------------------------------------
  // Sidebar rows (draw_sidebar)

  /** The marker in front of a chat title; favourites win over pinned,
      pinned over verified, verified over scam or fake. */
  function TitlePrefix(chat: ChatInfo, favorites: set<ChatId>): (p: string)
    ensures chat.id in favorites ==> p == "\U{2605} "
    ensures chat.id !in favorites && chat.isPinned ==> p == "\U{1F4CC} "
    ensures chat.id !in favorites && !chat.isPinned && chat.isVerified ==> p == "\U{2713} "
    ensures chat.id !in favorites && !chat.isPinned && !chat.isVerified && (chat.isScam || chat.isFake)
      ==> p == "\U{26A0} "
    ensures p == [] <==> (chat.id !in favorites && !chat.isPinned && !chat.isVerified && !chat.isScam && !chat.isFake)
  {
    if chat.id in favorites then "\U{2605} "
    else if chat.isPinned then "\U{1F4CC} "
    else if chat.isVerified then "\U{2713} "
    else if chat.isScam || chat.isFake then "\U{26A0} "
    else ""
  }

  /** The member-count suffix, shown for a present non-zero count. */
  function MemberSuffix(chat: ChatInfo): string {
    if TruthyId(chat.memberCount) then " (" + IntToDecimal(chat.memberCount.value) + ")" else ""
  }

  /** The unread suffix: mentions take precedence over unread messages. */
  function UnreadSuffix(chat: ChatInfo): string {
    if chat.unreadMentionsCount > 0 then " [@" + IntToDecimal(chat.unreadMentionsCount) + "]"
    else if chat.unreadMessagesCount > 0 then " [" + IntToDecimal(chat.unreadMessagesCount) + "]"
    else ""
  }

  /** The decorated title before truncation: marker and title, then the
      member count when there is one, then the mention count if any, else
      the unread count if any. */
  function DecoratedTitle(chat: ChatInfo, favorites: set<ChatId>): (t: string)
    ensures StartsWith(t, TitlePrefix(chat, favorites) + chat.title)
    ensures TruthyId(chat.memberCount)
      ==> StartsWith(t, TitlePrefix(chat, favorites) + chat.title + " (" + IntToDecimal(chat.memberCount.value) + ")")
    ensures chat.unreadMentionsCount > 0 ==> EndsWith(t, " [@" + IntToDecimal(chat.unreadMentionsCount) + "]")
    ensures chat.unreadMentionsCount <= 0 && chat.unreadMessagesCount > 0
      ==> EndsWith(t, " [" + IntToDecimal(chat.unreadMessagesCount) + "]")
    ensures chat.unreadMentionsCount <= 0 && chat.unreadMessagesCount <= 0 && TruthyId(chat.memberCount)
      ==> t == TitlePrefix(chat, favorites) + chat.title + " (" + IntToDecimal(chat.memberCount.value) + ")"
    ensures chat.unreadMentionsCount <= 0 && chat.unreadMessagesCount <= 0 && !TruthyId(chat.memberCount)
      ==> t == TitlePrefix(chat, favorites) + chat.title
  {
    var head := TitlePrefix(chat, favorites) + chat.title;
    var t := head + MemberSuffix(chat) + UnreadSuffix(chat);
    assert t[..|head|] == head;
    assert t[..|head + MemberSuffix(chat)|] == head + MemberSuffix(chat);
    assert t[|t| - |UnreadSuffix(chat)|..] == UnreadSuffix(chat);
    t
  }

  /** `title[:max_x - 7] + "..."` when the title is longer than `max_x - 4`. */
  function TruncateTitle(title: string, maxX: int): string {
    if |title| > maxX - 4 then PySlice(title, 0, maxX - 7) + "..." else title
  }

  /** For a sidebar at least 7 columns wide the truncated title is at most
      `maxX - 4` long, an untouched title is kept as is, and a cut title keeps
      its first `maxX - 7` characters. */
  lemma TruncateTitleBound(title: string, maxX: int)
    requires maxX >= 7
    ensures |TruncateTitle(title, maxX)| <= maxX - 4
    ensures |title| <= maxX - 4 ==> TruncateTitle(title, maxX) == title
    ensures |title| > maxX - 4 ==> TruncateTitle(title, maxX) == title[..maxX - 7] + "..."
  {
  }

  /** `f" {title} ".ljust(max_x - 2)`. */
  function SidebarRow(chat: ChatInfo, favorites: set<ChatId>, maxX: int): string {
    Ljust(" " + TruncateTitle(DecoratedTitle(chat, favorites), maxX) + " ", maxX - 2)
  }

  /** In a sidebar at least 7 columns wide every row is exactly as wide as the
      space between the borders. */
  lemma SidebarRowFits(chat: ChatInfo, favorites: set<ChatId>, maxX: int)
    requires maxX >= 7
    ensures |SidebarRow(chat, favorites, maxX)| == maxX - 2
  {
    TruncateTitleBound(DecoratedTitle(chat, favorites), maxX);
  }

  // ---------------------------------------------------------------------
  // Input box and status line

  /** The tail of the input that fits after the prompt: the last
      `max_x - 12` characters (the whole input when that width is 0). */
  function VisibleInput(input: string, maxX: int): (v: string)
    ensures |input| <= maxX - 12 ==> v == input
  {
    var width := maxX - |"Message: "| - 3;
    if |input| > width then PySlice(input, -width, |input|) else input
  }

  /** A positive width shows exactly the last `maxX - 12` characters. */
  lemma VisibleInputIsSuffix(input: string, maxX: int)
    requires maxX - 12 > 0
    ensures |VisibleInput(input, maxX)| == Min(|input|, maxX - 12)
    ensures VisibleInput(input, maxX) == input[|input| - |VisibleInput(input, maxX)|..]
  {
  }

  function ModeName(mode: int): string {
    if mode == 2 then "Favorites" else "All"
  }

  /** The status line, padded or cut to exactly the screen width. */
  function StatusLine(mode: int, inputFocused: bool, maxX: nat): (s: string)
    ensures |s| == maxX
  {
    var status := " Mode: " + ModeName(mode) + " | " + "Focus: " + (if inputFocused then "Messages" else "Chats") + " | " + "? for help";
    Ljust(status, maxX)[..maxX]
  }
}

=== FILE: worker.dfy ===
/** The session worker of telegram_worker.py: the object that owns the only
    connection to the remote service, keeps the per-chat message cache and the
    per-chat "history fetch in flight" marks, and publishes events to the UI.

    The remote service is not called: whatever it would return (a fetched
    batch, a sent message, the dialog list, a failure) is a parameter. Work the
    source schedules on the worker's event loop runs here as an ordinary call.
    The UI queue (a module-level queue shared with the UI in the source) is
    the field `uiQueue`: the worker appends in publication order and the UI
    takes from the front. */
module Worker {
  import opened Types
  import opened Text
  import opened History

  /** `limit` default of `load_chat_history`. */
  const DefaultHistoryLimit: int := 200

  /** The arguments of the remote history request. */
  datatype HistoryRequest = HistoryRequest(chatId: ChatId, limit: int, offset: nat)

  /** What the remote history fetch produced: the items it yielded (newest
      first; `None` for an item whose conversion raised), or an exception. */
  datatype FetchOutcome = Fetched(items: seq<Option<RawMessage>>) | FetchFailed(reason: string)

  /** The arguments of the remote send. */
  datatype SendRequest = SendRequest(chatId: ChatId, text: string)

  /** What the remote send produced: the sent message's id, text and date, or an exception. */
  datatype SendOutcome = Sent(id: MessageId, text: string, date: int) | SendFailed(reason: string)

  /** What starting the client produced: `ClientFailed` when constructing
      the client object raised (`self.app` is then not assigned), otherwise
      the outcome of `app.start()`. */
  datatype StartOutcome =
    | Started
    | ClientFailed(reason: string)
    | StartFailed(reason: string)
    | StartTimedOut(reason: string)

  /** How the remote dialog enumeration ended: normally, with an exception,
      or with `asyncio.TimeoutError`. */
  datatype StreamEnd = Completed | StreamFailed(reason: string) | StreamTimedOut(reason: string)

  /** The remote dialog enumeration: the dialogs it yielded (`None` for one
      whose processing raised) and how it ended. */
  datatype DialogStream = DialogStream(dialogs: seq<Option<RawDialog>>, end: StreamEnd)

  function HistoryErrorText(reason: string): string {
    "Failed to load chat history: " + reason
  }

  function SendErrorText(reason: string): string {
    "Failed to send message: " + reason
  }

  function StartErrorText(reason: string): string {
    "Failed to start Telegram client: " + reason
  }

  const LoadingChatsText: string := "Loading chats..."
  const TimeoutText: string := "Timeout while connecting to Telegram"

  /** The `error` events of a start-up that raised: the timeout handler adds
      its own event before the outer handler's. */
  function StartAbortEvents(timedOut: bool, reason: string): (es: seq<Event>)
    ensures |es| == if timedOut then 2 else 1
    ensures es[|es| - 1] == Error(StartErrorText(reason))
    ensures timedOut ==> es[0] == Error(TimeoutText)
  {
    (if timedOut then [Error(TimeoutText)] else []) + [Error(StartErrorText(reason))]
  }

  /** Whether a history load puts the batch in front (`bool(before_message_id)`). */
  predicate IsOlderLoad(before: Option<MessageId>) {
    TruthyId(before)
  }

  /** `any(msg['id'] == id for msg in msgs)`. */
  method ContainsId(msgs: seq<Message>, id: MessageId) returns (found: bool)
    ensures found == HasId(msgs, id)
  {
    found := false;
    var k := 0;
    while k < |msgs| && !found
      invariant 0 <= k <= |msgs|
      invariant found ==> HasId(msgs, id)
      invariant !found ==> forall j :: 0 <= j < k ==> msgs[j].id != id
    {
      found := msgs[k].id == id;
      k := k + 1;
    }
  }

  /** The loop of `load_chat_history` that converts the fetched items. */
  method CollectHistory(items: seq<Option<RawMessage>>) returns (messages: seq<Message>)
    ensures messages == CollectedHistory(items)
  {
    messages := [];
    var k := 0;
    while k < |items|
      invariant 0 <= k <= |items|
      invariant messages == CollectedHistory(items[..k])
    {
      assert items[..k + 1][..k] == items[..k];
      if items[k].Some? {
        messages := messages + [HistoryMessage(items[k].value)];
      }
      k := k + 1;
    }
    assert items[..k] == items;
  }

  class TelegramWorker {
    /** `self.app` is set. */
    var hasApp: bool
    /** `self._initialized`: the client started. */
    var initialized: bool
    var activeChatId: Option<ChatId>
    var messagesPerChat: map<ChatId, seq<Message>>
    /** The chats with a history fetch in flight (`messages_loading`). */
    var messagesLoading: set<ChatId>
    const messagesPerPage: int
    /** The pending events of the worker-to-UI queue, oldest first. */
    var uiQueue: seq<Event>

    constructor ()
      ensures !hasApp && !initialized && activeChatId == None
      ensures messagesPerChat == map[] && messagesLoading == {}
      ensures messagesPerPage == 200 && uiQueue == []
    {
      hasApp := false;
      initialized := false;
      activeChatId := None;
      messagesPerChat := map[];
      messagesLoading := {};
      messagesPerPage := 200;
      uiQueue := [];
    }

    /** `ui_queue.get_nowait()`: the oldest pending event, or nothing
        (`queue.Empty`) when none is pending. */
    method TakeEvent() returns (e: Option<Event>)
      modifies this`uiQueue
      ensures old(uiQueue) == [] ==> e.None? && uiQueue == []
      ensures old(uiQueue) != [] ==> e == Some(old(uiQueue)[0]) && uiQueue == old(uiQueue)[1..]
      ensures old(uiQueue) == (if e.Some? then [e.value] else []) + uiQueue
    {
      if uiQueue == [] {
        e := None;
      } else {
        e := Some(uiQueue[0]);
        uiQueue := uiQueue[1..];
      }
    }

    /** `_add_message_to_chat`: append the message unless its id is already
        stored for the chat; publish `new_message` exactly when it is added. */
    method AddMessageToChat(chatId: ChatId, m: Message) returns (added: bool)
      modifies this`messagesPerChat, this`uiQueue
      ensures added == !HasId(StoredFor(old(messagesPerChat), chatId), m.id)
      ensures messagesPerChat == old(messagesPerChat)[chatId := AppendIfNew(StoredFor(old(messagesPerChat), chatId), m)]
      ensures added ==> messagesPerChat[chatId] == StoredFor(old(messagesPerChat), chatId) + [m]
      ensures !added ==> messagesPerChat == old(messagesPerChat)
      ensures uiQueue == old(uiQueue) + if added then [NewMessage(chatId, m)] else []
      ensures DistinctIds(StoredFor(old(messagesPerChat), chatId)) ==> DistinctIds(messagesPerChat[chatId])
    {
      if chatId !in messagesPerChat {
        messagesPerChat := messagesPerChat[chatId := []];
      }
      var stored := messagesPerChat[chatId];
      var present := ContainsId(stored, m.id);
      if !present {
        messagesPerChat := messagesPerChat[chatId := stored + [m]];
        uiQueue := uiQueue + [NewMessage(chatId, m)];
        added := true;
      } else {
        added := false;
      }
      if DistinctIds(StoredFor(old(messagesPerChat), chatId)) {
        AppendIfNewKeepsDistinct(StoredFor(old(messagesPerChat), chatId), m);
      }
    }

    /** The incoming-message handler registered in `start_telegram_client`. */
    method HandleIncoming(chatId: ChatId, raw: RawMessage) returns (added: bool)
      modifies this`messagesPerChat, this`uiQueue
      ensures added == !HasId(StoredFor(old(messagesPerChat), chatId), raw.id)
      ensures messagesPerChat == old(messagesPerChat)[chatId := AppendIfNew(StoredFor(old(messagesPerChat), chatId), IncomingMessage(raw))]
      ensures uiQueue == old(uiQueue) + if added then [NewMessage(chatId, IncomingMessage(raw))] else []
    {
      added := AddMessageToChat(chatId, IncomingMessage(raw));
    }

    /** `load_chat_history` up to its suspension point: the guard, the
        in-flight mark and the request arguments. `None` is the early return. */
    method BeginHistoryLoad(chatId: ChatId, limit: int, before: Option<MessageId>) returns (request: Option<HistoryRequest>)
      modifies this`messagesLoading
      ensures request.Some? <==> hasApp && activeChatId == Some(chatId) && chatId !in old(messagesLoading)
      ensures request.Some? ==> request.value == HistoryRequest(chatId, limit, HistoryOffset(messagesPerChat, chatId, before))
      ensures request.Some? ==> messagesLoading == old(messagesLoading) + {chatId}
      ensures request.None? ==> messagesLoading == old(messagesLoading)
    {
      if !hasApp || activeChatId != Some(chatId) || chatId in messagesLoading {
        return None;
      }
      messagesLoading := messagesLoading + {chatId};
      var offset := if before.None? then 0 else if chatId in messagesPerChat then |messagesPerChat[chatId]| else 0;
      request := Some(HistoryRequest(chatId, limit, offset));
    }

    /** `load_chat_history` after the fetch: keep a non-empty batch if the chat
        is still active, publish it, and release the in-flight mark on every path. */
    method FinishHistoryLoad(chatId: ChatId, before: Option<MessageId>, outcome: FetchOutcome)
      modifies this`messagesPerChat, this`messagesLoading, this`uiQueue
      ensures chatId !in messagesLoading
      ensures messagesLoading == old(messagesLoading) - {chatId}
      ensures outcome.FetchFailed? ==>
        messagesPerChat == old(messagesPerChat) && uiQueue == old(uiQueue) + [Error(HistoryErrorText(outcome.reason))]
      ensures outcome.Fetched? && (CollectedHistory(outcome.items) == [] || activeChatId != Some(chatId)) ==>
        messagesPerChat == old(messagesPerChat) && uiQueue == old(uiQueue)
      ensures outcome.Fetched? && CollectedHistory(outcome.items) != [] && activeChatId == Some(chatId) ==>
        var merged := MergeHistory(StoredFor(old(messagesPerChat), chatId), CollectedHistory(outcome.items), IsOlderLoad(before));
        && messagesPerChat == old(messagesPerChat)[chatId := merged]
        && uiQueue == old(uiQueue) + [ChatHistoryLoaded(chatId, merged, IsOlderLoad(before))]
    {
      match outcome {
        case FetchFailed(reason) =>
          uiQueue := uiQueue + [Error(HistoryErrorText(reason))];
        case Fetched(items) =>
          var messages := CollectHistory(items);
          if messages != [] && activeChatId == Some(chatId) {
            var stored := if chatId in messagesPerChat then messagesPerChat[chatId] else [];
            var reversed := Reverse(messages);
            var merged := if IsOlderLoad(before) then reversed + stored else reversed;
            messagesPerChat := messagesPerChat[chatId := merged];
            uiQueue := uiQueue + [ChatHistoryLoaded(chatId, merged, IsOlderLoad(before))];
          }
      }
      messagesLoading := messagesLoading - {chatId};
    }

    /** `load_chat_history` run to completion with nothing interleaved at the fetch. */
    method LoadChatHistory(chatId: ChatId, limit: int, before: Option<MessageId>, outcome: FetchOutcome)
      returns (request: Option<HistoryRequest>)
      modifies this`messagesPerChat, this`messagesLoading, this`uiQueue
      ensures request.Some? <==> hasApp && activeChatId == Some(chatId) && chatId !in old(messagesLoading)
      ensures request.Some? ==> request.value == HistoryRequest(chatId, limit, HistoryOffset(old(messagesPerChat), chatId, before))
      ensures messagesLoading == old(messagesLoading)
      ensures request.None? ==> messagesPerChat == old(messagesPerChat) && uiQueue == old(uiQueue)
      ensures request.Some? && outcome.FetchFailed? ==>
        messagesPerChat == old(messagesPerChat) && uiQueue == old(uiQueue) + [Error(HistoryErrorText(outcome.reason))]
      ensures request.Some? && outcome.Fetched? && CollectedHistory(outcome.items) == [] ==>
        messagesPerChat == old(messagesPerChat) && uiQueue == old(uiQueue)
      ensures request.Some? && outcome.Fetched? && CollectedHistory(outcome.items) != [] ==>
        var merged := MergeHistory(StoredFor(old(messagesPerChat), chatId), CollectedHistory(outcome.items), IsOlderLoad(before));
        && messagesPerChat == old(messagesPerChat)[chatId := merged]
        && uiQueue == old(uiQueue) + [ChatHistoryLoaded(chatId, merged, IsOlderLoad(before))]
    {
      request := BeginHistoryLoad(chatId, limit, before);
      if request.Some? {
        FinishHistoryLoad(chatId, before, outcome);
      }
    }

    /** The cache `set_current_chat` keeps when it switches to `chatId`. */
    static function SwitchedCache(active: Option<ChatId>, cache: map<ChatId, seq<Message>>, chatId: ChatId): map<ChatId, seq<Message>>
    {
      if active == Some(chatId) then cache else map[]
    }

    /** The synchronous part of `set_current_chat`: switching to another chat
        empties the whole cache; the in-flight marks are left as they are. */
    method SwitchActiveChat(chatId: ChatId)
      modifies this`activeChatId, this`messagesPerChat
      ensures activeChatId == Some(chatId)
      ensures messagesPerChat == SwitchedCache(old(activeChatId), old(messagesPerChat), chatId)
    {
      if activeChatId != Some(chatId) {
        messagesPerChat := map[];
        activeChatId := Some(chatId);
      }
    }

    /** `set_current_chat`: switch, then the history load it schedules (with
        the default limit and no cursor). */
    method SetCurrentChat(chatId: ChatId, outcome: FetchOutcome) returns (request: Option<HistoryRequest>)
      modifies this`activeChatId, this`messagesPerChat, this`messagesLoading, this`uiQueue
      ensures activeChatId == Some(chatId)
      ensures messagesLoading == old(messagesLoading)
      ensures request.Some? <==> hasApp && chatId !in old(messagesLoading)
      ensures request.Some? ==> request.value == HistoryRequest(chatId, DefaultHistoryLimit, 0)
      ensures request.None? ==>
        uiQueue == old(uiQueue) && messagesPerChat == SwitchedCache(old(activeChatId), old(messagesPerChat), chatId)
      ensures request.Some? && outcome.FetchFailed? ==>
        && messagesPerChat == SwitchedCache(old(activeChatId), old(messagesPerChat), chatId)
        && uiQueue == old(uiQueue) + [Error(HistoryErrorText(outcome.reason))]
      ensures request.Some? && outcome.Fetched? && CollectedHistory(outcome.items) == [] ==>
        uiQueue == old(uiQueue) && messagesPerChat == SwitchedCache(old(activeChatId), old(messagesPerChat), chatId)
      ensures request.Some? && outcome.Fetched? && CollectedHistory(outcome.items) != [] ==>
        var loaded := Reverse(CollectedHistory(outcome.items));
        && messagesPerChat == SwitchedCache(old(activeChatId), old(messagesPerChat), chatId)[chatId := loaded]
        && uiQueue == old(uiQueue) + [ChatHistoryLoaded(chatId, loaded, false)]
      ensures old(activeChatId) != Some(chatId) ==> messagesPerChat.Keys <= {chatId}
    {
      SwitchActiveChat(chatId);
      request := LoadChatHistory(chatId, DefaultHistoryLimit, None, outcome);
    }

    /** `send_message` with the `async_send_message` it schedules: only with an
        active chat (non-zero id) and a client; the sent message goes through
        the de-duplicating append, a failure becomes an `error` event. */
    method SendMessage(text: string, outcome: SendOutcome) returns (request: Option<SendRequest>)
      modifies this`messagesPerChat, this`uiQueue
      ensures request.Some? <==> TruthyId(activeChatId) && hasApp
      ensures request.Some? ==> request.value == SendRequest(activeChatId.value, text)
      ensures request.None? ==> messagesPerChat == old(messagesPerChat) && uiQueue == old(uiQueue)
      ensures request.Some? && outcome.SendFailed? ==>
        messagesPerChat == old(messagesPerChat) && uiQueue == old(uiQueue) + [Error(SendErrorText(outcome.reason))]
      ensures request.Some? && outcome.Sent? ==>
        var m := SentMessage(outcome.id, outcome.text, outcome.date);
        var stored := StoredFor(old(messagesPerChat), activeChatId.value);
        && messagesPerChat == old(messagesPerChat)[activeChatId.value := AppendIfNew(stored, m)]
        && uiQueue == old(uiQueue) + if HasId(stored, m.id) then [] else [NewMessage(activeChatId.value, m)]
    {
      if !(TruthyId(activeChatId) && hasApp) {
        return None;
      }
      request := Some(SendRequest(activeChatId.value, text));
      match outcome {
        case SendFailed(reason) =>
          uiQueue := uiQueue + [Error(SendErrorText(reason))];
        case Sent(id, sentText, date) =>
          var _ := AddMessageToChat(activeChatId.value, SentMessage(id, sentText, date));
      }
    }

    /** The dialog loop of `start_telegram_client`: process each dialog, skip
        the ones that fail, count the kept ones and report every fifth. */
    method LoadDialogs(dialogs: seq<Option<RawDialog>>) returns (allChats: seq<ChatInfo>)
      modifies this`uiQueue
      ensures allChats == ProcessedChats(dialogs)
      ensures uiQueue == old(uiQueue) + ProgressEvents(|allChats|)
    {
      allChats := [];
      var totalLoaded: nat := 0;
      var k := 0;
      while k < |dialogs|
        invariant 0 <= k <= |dialogs|
        invariant allChats == ProcessedChats(dialogs[..k])
        invariant totalLoaded == |allChats|
        invariant uiQueue == old(uiQueue) + ProgressEvents(totalLoaded)
      {
        assert dialogs[..k + 1][..k] == dialogs[..k];
        if dialogs[k].Some? {
          allChats := allChats + [ProcessDialog(dialogs[k].value)];
          totalLoaded := totalLoaded + 1;
          if totalLoaded % 5 == 0 {
            uiQueue := uiQueue + [LoadingProgress(ProgressText(totalLoaded))];
          }
        }
        k := k + 1;
      }
      assert dialogs[..k] == dialogs;
    }

    /** `start_telegram_client` up to the keep-alive loop: create and start
        the client, load the chat directory, publish it pinned first. A failure
        to create the client leaves `self.app` as it was; any failure becomes
        `error` events and no `chats_loaded`. */
    method StartTelegramClient(start: StartOutcome, stream: DialogStream) returns (loaded: bool)
      modifies this`hasApp, this`initialized, this`uiQueue
      ensures hasApp == (!start.ClientFailed? || old(hasApp))
      ensures initialized == (start.Started? || old(initialized))
      ensures loaded <==> start.Started? && stream.end.Completed?
      ensures start.ClientFailed? || start.StartFailed? ==> uiQueue == old(uiQueue) + [Error(StartErrorText(start.reason))]
      ensures start.StartTimedOut? ==> uiQueue == old(uiQueue) + [Error(TimeoutText), Error(StartErrorText(start.reason))]
      ensures start.Started? ==>
        var chats := ProcessedChats(stream.dialogs);
        uiQueue == old(uiQueue) + [LoadingProgress(LoadingChatsText)] + ProgressEvents(|chats|)
          + match stream.end
            case Completed => [ChatsLoaded(PinnedFirst(chats), true)]
            case StreamFailed(reason) => [Error(StartErrorText(reason))]
            case StreamTimedOut(reason) => [Error(TimeoutText), Error(StartErrorText(reason))]
    {
      match start {
        case ClientFailed(reason) =>
          uiQueue := uiQueue + StartAbortEvents(false, reason);
          return false;
        case StartFailed(reason) =>
          hasApp := true;
          uiQueue := uiQueue + StartAbortEvents(false, reason);
          return false;
        case StartTimedOut(reason) =>
          hasApp := true;
          uiQueue := uiQueue + StartAbortEvents(true, reason);
          return false;
        case Started =>
          hasApp := true;
          initialized := true;
      }
      uiQueue := uiQueue + [LoadingProgress(LoadingChatsText)];
      var allChats := LoadDialogs(stream.dialogs);
      match stream.end {
        case StreamFailed(reason) =>
          uiQueue := uiQueue + StartAbortEvents(false, reason);
          return false;
        case StreamTimedOut(reason) =>
          uiQueue := uiQueue + StartAbortEvents(true, reason);
          return false;
        case Completed =>
      }
      uiQueue := uiQueue + [ChatsLoaded(PinnedFirst(allChats), true)];
      loaded := true;
    }
  }
}
